=== FILE: README.md ===
# wmPopup: a Dafny model of the popup plugin's core

`popup-javascript.js` is a Squarespace plugin. Links whose `href` contains
`#wm-popup=` (or `#wmpopup`) open a page of the site in an overlay. Optionally, a
link opens only one block of that page, which is moved into a slot while the overlay
is open and put back when it closes.

This project models the sequential logic under the DOM and network glue:

- `deepMerge` (module `JsonMerge`), as a pure function over JSON values:
  `Null`, `Bool`, `Int`, `Str`, `Arr`, `Obj`.
- The registry step of `setLinks` and `href.split('=')[1]` (module `Registry`, and
  `Popup.Controller.SetLinks`). Each trigger registers its path once and adds its hash
  to the path's `selectors` array, without duplicates. Each trigger is also marked
  with `data-wm-popup="path"`: the trigger's node then matches that selector.
- `loadScripts` (module `Scripts`), as a loop that returns the list of executions it
  performs (`eval` of a body, or appending a `src`), and whether it reached the end of
  the queue (a queued `null` throws at line 209).
- The closure state of `wmPopup` (class `Popup.Controller`):
  - the `popups` registry;
  - `initialized`, `isOpen`, `activeId`, `activeContainer`;
  - where the shared `.wm-popup-container` is, and its `open` class;
  - the part of the page under `.wm-popup-content`, as a parent-to-children map
    (module `Dom`) plus the selectors each node matches.

  On this state are modelled `init`, `render`, `buildAllPopups`, `buildPopup`
  (including its `init` guard), `open`, `close` and `returnElement`.
- A ghost `fetchLog` that records every fetch. Every method keeps it free of repeats
  and equal to the set of built popups, so no sequence of calls fetches a popup twice.
- The main property, `Popup.ReturnUndoesRelocation`: `open(id, target)` moves the
  target into the popup's slot, and the `close()` after it (`returnElement`) puts it
  back. The parent's child list is then exactly what it was, whether the node was the
  first, a middle or the last child. `PopupScenarios.OpenThenCloseTwice` runs this
  through the public methods.

Thrown exceptions are modelled as outcomes: `Threw(fault)`, with one `Fault` per place
the source throws. A method that throws partway leaves exactly the changes the source
has made by then.

## Behaviour of the code worth knowing

- `close()` when nothing was opened throws. Before `init`, `elements.container` is
  still `null`, so line 301 throws. After `init`, `activeContainer` is undefined, so
  line 302 throws. See `PopupScenarios.CloseBeforeInit` and
  `PopupScenarios.CloseBeforeOpen`.
- A target selector that matches nothing makes `open` throw at line 289
  (`TargetMissing`), after `isOpen` and `activeId` have been set.
- `fetchHTML` returns `null` only when `fetch` rejects (a network error) or when the
  fetched page has no `#sections` (lines 148-155). An HTTP error page still resolves,
  and its `#sections` content is mounted like any other. After a `null`, the wrapper
  holds the text `null` and no `.content-wrapper`, so line 185 throws and the error is
  caught. `popup.container` stays unset, and `open` throws later (`MissingContainer`).
- The test at line 199 is always true, because two of its operands are `NodeList`s,
  which are truthy. So every `buildAllPopups` queues the result of the loader query,
  even when it is `null`. A queued `null` makes `loadScripts` throw at line 209, and
  the error is caught at line 173.
- `hasLoaded` starts empty on every `loadScripts` call, so the first queued script
  always runs (`Scripts.FirstScriptRuns`). `scriptsToLoad` is never cleared.
- `returnElement` throws a `HierarchyRequestError` when the moved node now contains its
  old parent. This can happen when the parent was itself moved under the node.
- The relocation record is never cleared. `close` clears only the
  `single-block-only` flag, and `activeContainer` keeps pointing at the last wrapper.
- `setLinks` gives each trigger the attribute `data-wm-popup` (line 108), the same
  attribute the wrapper of line 182 carries. The query at line 183 searches all of
  `.wm-popup-content`. A trigger inside a popup's content that links to popup `id`
  therefore matches `[data-wm-popup="id"]` (`Popup.MarkedTriggerMatches`), and is
  found in place of the new wrapper when it comes first in document order.
- Opening a second popup while one is open overwrites `activeId` and
  `activeContainer`. The first wrapper keeps its `open` class.

## Model

| member | source | states |
|---|---|---|
| JsonMerge.Merge | popup-javascript.js:56-69 | The result has the later value's type. On a type mismatch, or when the later value is a scalar, the later value wins. Two arrays give the first array's items followed by the second's. Two objects give the union of their keys. |
| JsonMerge.MergeFields | popup-javascript.js:43-52 | `mergeObj`: the keys are the union of both key sets. A key only in the clone keeps its value, and a key only in the later object takes the later value. A key in both is merged with `Merge`, which recurses only when both values are arrays or both are objects. |
| JsonMerge.MergeAll | popup-javascript.js:54-70 | With no later arguments the first is returned. Otherwise the result has the type of the last argument. |
| JsonMerge.MergeAllSnoc | popup-javascript.js:56-69 | The loop folds from the left: one more argument is one more `Merge` step on the result so far. |
| JsonMerge.DeepMerge | popup-javascript.js:38-71 | No arguments give `undefined` (`None`). Otherwise the result is the left fold of the later arguments into the first, and has the last argument's type. |
| JsonMerge.LaterScalarWins | popup-javascript.js:57-60 | When the last argument is a scalar, the result is that argument, whatever came before. |
| JsonMerge.EmptyContainersAreNeutral | popup-javascript.js:62-65 | Merging with `[]` or `{}` of the same type, on either side, gives the other value back. |
| JsonMerge.UserParams | popup-javascript.js:20 | `window.wmPopupSettings \|\| {}`: a truthy setting is taken as is, anything else gives `{}`. |
| JsonMerge.OptionsFromSettings | popup-javascript.js:14-20 | `deepMerge(defaults, userParams)` of object settings has the union of the keys. A default the user does not set keeps its value, and a user `baseInit` array is appended after `'#wm-popup='`. Settings that are not an object replace the defaults. |
| Registry.SplitSecond | popup-javascript.js:97 | `split('=')[1]` is undefined exactly when there is no `=`, and the field it returns has no `=`. |
| Registry.SplitSecondField | popup-javascript.js:97 | For an `href` of the form `prefix=v` or `prefix=v=more`, with no `=` in `prefix` or `v`, the field is `v`. |
| Registry.AddSelector | popup-javascript.js:114-115 | A push only ever extends the array, by at most one selector. |
| Registry.AddSelectorSpec | popup-javascript.js:114-115 | The array gains exactly a non-empty hash it does not hold yet, so a repeat-free array stays repeat-free. |
| Registry.Register | popup-javascript.js:110-124 | One trigger adds its path to the keys and leaves the other entries unchanged. An existing entry keeps everything but its selectors, and a new entry starts unbuilt. The hash is added when it is non-empty and new. |
| Registry.RegisterAll | popup-javascript.js:96-124 | Processing triggers never removes a registered path. |
| Registry.RegisterAllSnoc | popup-javascript.js:96-124 | Triggers are processed in document order: one more trigger is one more `Register` step. |
| Registry.RegisterAllKeys | popup-javascript.js:111-124 | After any trigger sequence, the keys are the old keys plus every path seen: one entry per distinct path. |
| Registry.RegisterAllKeepsBuildState | popup-javascript.js:119-124 | An existing entry is never replaced: its `init`, wrapper, slot and record are unchanged. A new entry has none of them. |
| Registry.RegisterAllSelectors | popup-javascript.js:110-117 | Each entry's `selectors` are its old selectors extended by the hashes of that path's triggers, in order. |
| Registry.AddSelectorsSpec | popup-javascript.js:114-115 | The extended list has no duplicates. It contains exactly the old selectors and every non-empty hash seen. |
| Registry.AddSelectorsFirstSeen | popup-javascript.js:114-115 | The selectors added are in the order in which each was first seen. |
| Scripts.ExecOf | popup-javascript.js:214-220 | A script with a body is `eval`ed and recorded by its body. Any other script is appended and recorded by its `src`. |
| Scripts.Plan | popup-javascript.js:205-222 | At most one execution per queued entry, and none whose key is already in `hasLoaded`. |
| Scripts.LoadScripts | popup-javascript.js:205-222 | The loop performs exactly the executions of `Plan(scriptsToLoad, [])`. An empty list performs nothing. It reaches the end exactly when no queued entry is `null`. |
| Scripts.PlanStopsAtNull | popup-javascript.js:208-209 | A queued `null` stops the loop: the executions are those of the scripts queued before it. |
| Scripts.PlanNoRepeats | popup-javascript.js:207-220 | Within one call no recorded key (`src` or body) is executed twice, nor one already in `hasLoaded`. |
| Scripts.PlanInOrder | popup-javascript.js:208 | The executions are a subsequence of `scriptsToLoad`, in its order. |
| Scripts.PlanCovers | popup-javascript.js:209-220 | Once the loop has passed a script with no `null` before it, that script's `src` or body is in `hasLoaded`: a skipped script was covered by an earlier one. |
| Scripts.FirstScriptRuns | popup-javascript.js:207-219 | `hasLoaded` starts empty on every call, so the first queued script, when it is not `null`, always runs: its body is `eval`ed, or its `src` appended. |
| Dom.AppendChild | popup-javascript.js:143 | `parent.appendChild(n)` makes `n` the last child of the parent and the child of no other node, with the same set of nodes. |
| Dom.MoveChild | popup-javascript.js:292 | The target node ends up as the last child of the slot, with the same set of nodes. |
| Dom.InsertBefore | popup-javascript.js:141 | `parent.insertBefore(n, ref)` fails exactly when `ref` is not a child of the parent. Otherwise `n` ends up right before `ref`, or nothing changes when `ref` is `n`. |
| Dom.NextSibling | popup-javascript.js:290 | A next sibling exists only for a child that is not the last, and it is one of the children. |
| Dom.MoveChildIsAppend | popup-javascript.js:292 | Moving a child of its parent to the end of the slot is `appendChild` on a well-formed tree. |
| Dom.AppendChildWellFormed | popup-javascript.js:143 | `appendChild` keeps children distinct, with at most one parent each. |
| Dom.InsertBeforeWellFormed | popup-javascript.js:141 | `insertBefore` keeps children distinct, with at most one parent each. |
| Dom.RelocateThenRestore | popup-javascript.js:134-145 | After moving a child into a slot, `insertBefore(n, its old next sibling)` or, when it was last, `appendChild(n)` gives back exactly the tree before the move. |
| Dom.Graft | popup-javascript.js:182-185 | `insertAdjacentHTML('beforeend', ...)`: the parsed elements get fresh ids, and their roots become the last children of the node. No other node's children change. |
| Dom.GraftWellFormed | popup-javascript.js:182-185 | Inserting parsed markup keeps the tree well formed. |
| Dom.FirstMatch | popup-javascript.js:183-184 | The match found matches the selector. When nothing is found, nothing matches. |
| Dom.PreorderDescends | popup-javascript.js:183-187 | Every node the document-order walk reaches is one of the starting children or a child of some node. |
| Dom.Find | popup-javascript.js:288 | The depth-first search returns a node that matches the selector and is a starting child or has a parent. |
| Dom.FindIsFirstInPreorder | popup-javascript.js:288 | The depth-first walk returns exactly the first match in document order. |
| Dom.QuerySelector | popup-javascript.js:288 | `querySelector` returns a node that matches the selector and lies below the root in document order. |
| Dom.MoveKeepsOutside | popup-javascript.js:292 | Moving a node between two nodes outside it leaves every node that was outside it outside it. |
| Popup.AcceptedSpec | popup-javascript.js:96-99 | The accepted pairs are the parsed URLs of the leading triggers, one for one. The trigger after them, if any, is the one whose URL the constructor rejected. |
| Popup.TriggerUrl | popup-javascript.js:97-98 | The URL is the origin followed by the field after the first `=`, which holds no `=`, or by `undefined` when the `href` has no `=`. |
| Popup.Accepted | popup-javascript.js:96-99 | `setLinks` gets through at most one URL per trigger. |
| Popup.HolderSelector | popup-javascript.js:182-183 | `[data-wm-popup="id"]` starts with the attribute prefix, so marks and wrapper selectors are told apart from class selectors. |
| Popup.HolderSelectorInjective | popup-javascript.js:182-183 | Two ids give the same wrapper selector only when they are equal. |
| Popup.Mark | popup-javascript.js:108 | `el.dataset.wmPopup = path`: the trigger then matches `[data-wm-popup="path"]` and no other value of the attribute. Its other selectors are kept, and no other node changes. |
| Popup.MarkAll | popup-javascript.js:96-108 | Marking the triggers of the accepted links changes no node outside those triggers. |
| Popup.MarkAllSnoc | popup-javascript.js:96-108 | Triggers are marked in document order: one more trigger is one more mark. |
| Popup.MarkAllLast | popup-javascript.js:96-108 | A trigger that no later trigger shares a node with ends up matching exactly the selector of its own path. |
| Popup.MarkedTriggerMatches | popup-javascript.js:183 | After `setLinks` (line 108), `[data-wm-popup="path"]` already matches the marked trigger before any wrapper is built, so the query at line 183 can find a trigger inside `.wm-popup-content` instead of the new wrapper. |
| Popup.AddClass | popup-javascript.js:293 | `classList.add` adds the class to that node only. |
| Popup.RemoveClass | popup-javascript.js:301-306 | `classList.remove` removes the class from that node only. |
| Popup.OpenedLabels | popup-javascript.js:292-297 | After `open`, the wrapper has gained `open`, plus `single-block-only` when a target was moved. No other node changes. |
| Popup.Returned | popup-javascript.js:134-145 | A successful `returnElement` keeps the set of nodes. |
| Popup.ActiveKey | popup-javascript.js:305 | `popups[activeId]` with a null `activeId` reads the key `"null"`. Any other id is read as is. |
| Popup.ReturnedFails | popup-javascript.js:134-145 | `returnElement` throws exactly when the key is unknown, when there is no record, when the node now contains its old parent (`HierarchyRequestError`), or when the recorded sibling is no longer a child of the parent. The fault says which of the last two happened. |
| Popup.ReturnUndoesRelocation | popup-javascript.js:134-145 | On an acyclic page, returning a node that `open` recorded and moved into a slot outside it gives back exactly the page before the move, whatever its position among its siblings. |
| Popup.ReturnedWellFormed | popup-javascript.js:134-145 | Returning keeps the tree well formed. |
| Popup.ElementGraft | popup-javascript.js:182-185 | One empty element's markup adds one childless node, carrying its selectors, as the parent's last child. |
| Popup.EmptyHolderHasNoWrapper | popup-javascript.js:182-185 | After a `null` fetch, when no node matched `[data-wm-popup="id"]` before, the wrapper found is the new empty one, which has no `.content-wrapper`. |
| Popup.Controller.constructor | popup-javascript.js:10-35 | The state when the script loads: empty registry, nothing initialized, built or open. The page under `.wm-popup-content` is one empty node, nothing carries a selector, and `options` is `{}` until `init`. `userParams` is read from the settings. |
| Popup.Controller.SetLinks | popup-javascript.js:93-133 | The registry becomes the old one with every accepted trigger registered in order. Each accepted trigger is marked with its path, in order. The call fails, with `BadUrl`, exactly when a trigger's URL is rejected. That trigger and the ones after it are neither marked nor registered. |
| Popup.Controller.Visit | popup-javascript.js:96-124 | One trigger: its URL is built from `split('=')[1]`. A rejected URL marks and registers nothing. A parsed one marks the trigger with its path, then registers it. |
| Popup.Controller.RegisterTrigger | popup-javascript.js:110-124 | The in-place registry step equals `Register`, and the invariant is kept. |
| Popup.Controller.Render | popup-javascript.js:275-277 | `render()` is `setLinks()`: the same registry and marks. |
| Popup.Controller.InsertHtml | popup-javascript.js:182 | The parsed markup is grafted at the next free ids, and the counter moves past them. |
| Popup.Controller.BuildPopup | popup-javascript.js:176-191 | An unknown id throws. A popup whose build started changes nothing. Otherwise `init` is set and the path is fetched exactly once: `fetchLog` gains the id. The entry then either only has `init` set, or also records a wrapper carrying `[data-wm-popup="id"]` and the first `.single-block-container` under it. Before `init` there is no `.wm-popup-content`, and nothing else changes. A `null` fetch records nothing when no other node matched the wrapper selector. Other entries and the selectors are unchanged. |
| Popup.Controller.Build | popup-javascript.js:179-190 | Past the guard: the fetch is logged, and the entry ends started or mounted, as in `BuildPopup`. |
| Popup.Controller.Mount | popup-javascript.js:182-187 | Either the entry records a wrapper carrying `[data-wm-popup="id"]` and the slot under it, or the entry is unchanged. Markup without elements leaves it unchanged when nothing matched the wrapper selector before. No node is removed. |
| Popup.Controller.Wrap | popup-javascript.js:182 | The wrapper is a fresh node with the id's selector, appended last under `.wm-popup-content`. The counter moves past it and the markup. Markup without elements leaves the wrapper found by the selector without a `.content-wrapper`, when nothing matched it before. |
| Popup.Controller.Settle | popup-javascript.js:184-187 | The entry records the wrapper and its slot exactly when the wrapper has a `.content-wrapper`. Otherwise the registry is unchanged. |
| Popup.Controller.AddSlot | popup-javascript.js:184-187 | A wrapper without `.content-wrapper` stops the build, with nothing changed (the error is caught). Otherwise one childless `.single-block-container` node is appended to the first `.content-wrapper`, and the entry records the wrapper and the first `.single-block-container` under it. |
| Popup.Controller.AttachSlot | popup-javascript.js:185-187 | One childless `.single-block-container` node is appended to the given `.content-wrapper`, and the entry records the wrapper and the first slot under it. |
| Popup.Controller.AppendSlot | popup-javascript.js:185 | The slot is a fresh, childless `.single-block-container` node, appended as the wrapper's last child. Nothing else changes. |
| Popup.Controller.RecordBuild | popup-javascript.js:186-187 | The entry records the wrapper, and the first `.single-block-container` under it as the slot. |
| Popup.Controller.BuildAll | popup-javascript.js:158-204 | Every registered popup ends up built, and each one not built before is fetched. No path is added or removed. Every entry keeps its path, selectors and record, and an entry built before is unchanged. The result of the loader query, `null` included, is always queued, and `loadScripts` runs on the queue. |
| Popup.Controller.BuildEntry | popup-javascript.js:159-161 | One turn of the build loop: the popup ends up built, only builds happen to the registry, and the fetch log gains at most that id. |
| Popup.Controller.Init | popup-javascript.js:244-255 | The options are always re-merged and the triggers always re-registered and re-marked. After that, the registry only changes by builds: each entry keeps its path, selectors and record, and a built entry is unchanged. Only the first successful call builds the container and, with `preload`, every popup. Later calls fetch nothing, and the page changes only by the marks. |
| Popup.Controller.Relink | popup-javascript.js:246-254 | `setLinks()`, then the once-guard: an initialized controller, or a rejected trigger, builds and fetches nothing and changes the page only by the marks. |
| Popup.Controller.MergeOptions | popup-javascript.js:245 | `options` is `deepMerge(defaults, userParams)`. |
| Popup.Controller.Start | popup-javascript.js:250-254 | Sets `initialized`, builds the container, and with `preload` builds every popup. The registry changes only by builds. |
| Popup.Controller.Open | popup-javascript.js:278-298 | An unknown id throws with nothing changed. A built popup is never fetched again, and an unbuilt one exactly once. Building leaves the other entries unchanged and keeps the popup's path and selectors. A rejected site bundle throws before anything opens. Success means the popup is shown. With a target, the first match of the target under the wrapper, in the page the build left (`built`, with its selectors `marks`), is recorded with its parent and next sibling. No match throws `TargetMissing`, and on success that node is moved into the slot. Without a target, that page is kept. On success the wrapper has gained `open`, plus `single-block-only` after a move. A throw with the container built leaves the page and selectors as the build left them, and so does any throw without a target. |
| Popup.Controller.EnsureBuilt | popup-javascript.js:279-283 | Builds an unknown or unbuilt popup, then awaits the bundle. The popup is built afterwards, and the outcome follows the build and the bundle. The registry changes only by the build: other entries are unchanged, the popup keeps its path, selectors and record, and it ends started or mounted as in `BuildPopup`. Without the shared container the page is unchanged. The open state is untouched. |
| Popup.Controller.Show | popup-javascript.js:284-297 | Sets `isOpen`, `activeId` and `activeContainer`. Only the record of `id` may change. With a target and a wrapper, the first match under the wrapper is recorded, and no match throws `TargetMissing`. Success means the popup is shown, the recorded node is moved to the slot, and the wrapper has gained `open` (plus `single-block-only` after a move). A throw with the container built leaves the page unchanged. A throw before the move, or after it with the container built, leaves the selectors unchanged. |
| Popup.Controller.Present | popup-javascript.js:287-297 | The target is moved first, when there is one: its first match under the wrapper is recorded, and no match throws `TargetMissing`. Then the shared container goes under `#siteWrapper`, and it and the wrapper get `open`. On success the selectors are exactly the old ones plus `open` (and `single-block-only` after a move) on the wrapper. A throw with the container built leaves page and selectors unchanged, and so does any throw without a target. |
| Popup.Controller.MoveTarget | popup-javascript.js:287-294 | Without a wrapper, the target branch throws `MissingContainer` with nothing changed. Otherwise the first match of the target under the wrapper is recorded, and no match throws `TargetMissing`. On success the node is moved into the slot and the wrapper gains `single-block-only` and nothing else. A throw leaves page and selectors unchanged. |
| Popup.Controller.Display | popup-javascript.js:295-297 | Without the shared container nothing changes and the call throws. Otherwise the container moves and is marked open. A missing wrapper throws after that, and an existing one gains `open`. The page and the registry are untouched. |
| Popup.Controller.Relocate | popup-javascript.js:288-294 | No match throws with nothing changed. A match is recorded with its parent and next sibling, and the move succeeds exactly when the slot exists and is not inside the target. On success the target is moved to the slot, and the wrapper gains `single-block-only` and nothing else changes in the selectors. |
| Popup.Controller.MoveInto | popup-javascript.js:289-293 | The record is set before the append. The move fails, with the page unchanged, exactly when the slot is missing or lies inside the node. On success the wrapper gains `single-block-only` and no other selector changes. |
| Popup.Controller.AppendTarget | popup-javascript.js:292-293 | The node becomes the slot's last child, and the wrapper gets `single-block-only`. |
| Popup.Controller.ReturnElement | popup-javascript.js:134-145 | The page becomes the tree `Returned` gives, or stays unchanged when it throws. |
| Popup.Controller.Close | popup-javascript.js:299-309 | `isOpen` is cleared first. Without the shared container, or without an active wrapper, the call throws there with the page, selectors and container place unchanged. Otherwise the wrapper loses `open` and the container goes back under the popup parent. A `single-block-only` wrapper gets its node returned and loses the flag. A failed return throws with the page unchanged and only `open` removed. `activeId` is cleared unless the return threw. |
| Popup.Controller.Unpin | popup-javascript.js:304-308 | Returns the node and clears the flag only when the wrapper has it. A failed return leaves everything as it was. The registry and the container are untouched. |
| Popup.Controller.Restore | popup-javascript.js:305-308 | The page becomes the returned tree, the flag is removed and `activeId` cleared. A failed return changes nothing. |
| Popup.Controller.Unflag | popup-javascript.js:306-308 | Removes `single-block-only` from the wrapper and clears `activeId`. |
| PopupScenarios.OpenThenCloseTwice | popup-javascript.js:278-309 | After a successful `open(id, target)` of a built popup on an acyclic page, `close()` twice: both succeed, and the page is exactly as before the open. |
| PopupScenarios.CloseRestores | popup-javascript.js:299-309 | The first close returns the moved node and clears the flag. |
| PopupScenarios.CloseAgain | popup-javascript.js:304-308 | A close without the flag moves nothing. |
| PopupScenarios.CloseBeforeInit | popup-javascript.js:299-301 | `close()` right after load throws: `elements.container` is `null`. |
| PopupScenarios.CloseBeforeOpen | popup-javascript.js:299-302 | `close()` after `init()` with nothing opened throws on the undefined `activeContainer`. When `init` failed, it throws one line earlier. |
| PopupScenarios.LoadThenInit | popup-javascript.js:244-255 | After load and `init()`, nothing is active, and the container exists exactly when `init` succeeded. |
| PopupScenarios.CloseNothingOpen | popup-javascript.js:299-302 | With no active wrapper, `close()` throws at line 301 or 302. |
| PopupScenarios.OpenTwice | popup-javascript.js:176-181 | Two `open(id)` calls fetch the popup at most once between them. |

## Left out

- Network I/O is not modelled: `fetch`, `DOMParser` and `fetchHTML` become an oracle `Network` from a path to the parsed `#sections` content, or `null` for a rejected fetch or a page without `#sections`. `loadSiteBundle` becomes a boolean saying whether the bundle loads.
- `initializeScripts` and the Squarespace and YUI calls are foreign hooks and are left out. The loader query in `checkForSquarespaceScripts` reads the document outside the model, so its result is a parameter of `buildAllPopups`.
- `eval` and script element creation are not executed. `loadScripts` returns the list of executions it would perform.
- The URL constructor is a parameter (`parse`). The node of each trigger is a parameter too (`at`, with `None` for a trigger outside `.wm-popup-content`).
- The `window.self !== window.top` clone (lines 126-128) replaces a trigger by a copy with the same attributes. The model keeps the trigger's node.
- `setLinks` reads `href` in its query (line 94) and at line 97. The model takes each call's query result as the parameter `hrefs`. Outside an iframe, line 130 sets `href` to `#`, so a later `init()` or `render()` no longer selects the triggers already processed. Inside an iframe, the clone keeps its `href` and is selected again. This narrowing of later calls is not modelled: the caller passes the `hrefs` the query would return.
- `data-wm-popup-selector` (line 116) is read only by the click listener (lines 258-264), which is left out. The `data-wm-popup` mark of line 108 is modelled.
- Markup strings, ARIA attributes and the SVG are left out. The container and the wrapper are modelled by the selectors they match.
- Click listeners, `preventDefault`, `autoplay` (never read by `open`) and the `async` interleaving are left out. Calls run to completion one after another, and `buildAllPopups` builds the popups in sequence.
- Numbers in option values are integers. Floating point and `structuredClone` of non-JSON values are left out.
- The shared `.wm-popup-container` is kept outside the tree: its place is the `host` field. Before `init`, `siteWrapper.append(null)` inserts a text node `"null"`; this is not modelled.
- Which selectors a node matches is fixed per node in `labels`. Only the class changes the model makes (`open`, `single-block-only`, the `data-wm-popup` mark) change it. A target selector whose match depends on position or on an ancestor's classes (`#a > b`, `#a + b`, `:first-child`, `.open #x`) does not change its match when nodes move or ancestors gain classes.
- Text nodes are not modelled, so `nextSibling` is always an element.
- An invalid selector (a `SyntaxError` from `querySelector`) is not modelled. `#siteWrapper` and the popup parent are assumed to exist.
- Dom.QuerySelector: the walk is bounded by the number of nodes. The tree invariant states distinct children and at most one parent per node, but not acyclicity, so reaching every descendant within that bound is not proved.
- Popup.Controller.BuildPopup: the recorded wrapper is stated to carry `[data-wm-popup="id"]`, not to be the node just added. Nor is the slot stated to be found, since `Dom.QuerySelector` is not proved to reach every descendant.
- Popup.Controller.Mount: the same as `BuildPopup`. Which nodes the markup adds is stated by `Wrap`.
- Popup.ReturnUndoesRelocation: requires the page to be acyclic. The tree invariant does not include acyclicity, so `PopupScenarios.OpenThenCloseTwice` requires it too.
- Dom.AppendChild: does not raise `HierarchyRequestError` itself. `Popup.Returned` and `Popup.Controller.MoveInto` check for it before calling it.
- Dom.InsertBefore: does not raise `HierarchyRequestError` itself. `Popup.Returned` checks for it before calling it.
- Popup.Controller.Present: states which node is taken and that no match throws `TargetMissing`. Which of `MissingSlot` and `HierarchyRequest` a failed move throws is stated only by `Relocate` and `MoveInto`. When the target was moved but the shared container was never built, the page and the selectors after the throw are not stated. This case needs a wrapper before `init`. `buildPopup` makes one only inside `.wm-popup-content`, which `init` creates, but the class invariant does not record this.
- Popup.Controller.Show: leaves the same cases unstated as `Present`.
- Popup.Controller.Open: leaves the same cases unstated as `Present`.
- Popup.Controller.MoveTarget: which of `MissingSlot` and `HierarchyRequest` a failed move throws is stated only by `Relocate` and `MoveInto`.

=== FILE: common.dfy ===
/** Small shared vocabulary: an optional value and duplicate-free sequences. */
module Common {

  /** A JavaScript value that may be `null`/`undefined`, or a DOM lookup that may find nothing. */
  datatype Option<+T> = None | Some(value: T)

  /** No element occurs twice. */
  ghost predicate Distinct<T>(s: seq<T>) {
    forall i, j :: 0 <= i < j < |s| ==> s[i] != s[j]
  }

  /** The last element of a non-empty sequence. */
  function Last<T>(s: seq<T>): T
    requires s != []
  {
    s[|s| - 1]
  }

  /** The position of the first `x` in `s` (`indexOf`, with `None` for -1). */
  function IndexOf<T(==)>(s: seq<T>, x: T): (r: Option<nat>)
    ensures r.None? <==> x !in s
    ensures r.Some? ==> r.value < |s| && s[r.value] == x && x !in s[..r.value]
  {
    if s == [] then None
    else if s[0] == x then Some(0)
    else match IndexOf(s[1..], x)
      case None => None
      case Some(i) => assert s[1..][..i] == s[1..i + 1]; Some(i + 1)
  }

  /** A new element in front keeps a sequence duplicate-free. */
  lemma ConsDistinct<T>(x: T, t: seq<T>)
    requires Distinct(t) && x !in t
    ensures Distinct([x] + t)
  {
    var s := [x] + t;
    forall i, j | 0 <= i < j < |s| ensures s[i] != s[j] {
      assert s[j] == t[j - 1];
      if i > 0 {
        assert s[i] == t[i - 1];
      }
    }
  }

  /** An element that does not occur earlier is found where it stands. */
  lemma IndexOfFirst<T>(s: seq<T>, i: nat)
    requires i < |s| && s[i] !in s[..i]
    ensures IndexOf(s, s[i]) == Some(i)
  {
  }

  lemma IndexOfDistinct<T>(s: seq<T>, i: nat)
    requires Distinct(s) && i < |s|
    ensures IndexOf(s, s[i]) == Some(i)
  {
  }
}

=== FILE: dom.dfy ===
/**
 * The part of the browser DOM the popup plugin relies on, as values: each node's
 * child list in document order, the selectors each node matches, `querySelector`,
 * `insertAdjacentHTML('beforeend', …)`, `appendChild`/`append` and `insertBefore`.
 */
module Dom {
  import opened Common

  type NodeId = nat

  /** Parent node to its children, in document order. */
  type Tree = map<NodeId, seq<NodeId>>

  /** The selectors each node matches (class, id and attribute selectors alike). */
  type Labels = map<NodeId, set<string>>

  /**
   * Every child is itself a node, no child list repeats a node, and a node has at
   * most one parent.
   */
  ghost predicate WellFormed(d: Tree) {
    && (forall p :: p in d ==> forall c :: c in d[p] ==> c in d)
    && (forall p :: p in d ==> Distinct(d[p]))
    && (forall p, q, c :: p in d && q in d && c in d[p] && c in d[q] ==> p == q)
  }

  ghost predicate HasParent(d: Tree, n: NodeId) {
    exists p :: p in d && n in d[p]
  }

  // ---------------------------------------------------------------------------
  // Child lists

  /** `s` without `n`. */
  function Remove(s: seq<NodeId>, n: NodeId): (r: seq<NodeId>)
    ensures n !in r && forall x :: x in r ==> x in s
    ensures n !in s ==> r == s
  {
    if s == [] then [] else (if s[0] == n then [] else [s[0]]) + Remove(s[1..], n)
  }

  lemma {:induction false} RemoveKeeps(s: seq<NodeId>, n: NodeId, x: NodeId)
    requires x in s && x != n
    ensures x in Remove(s, n)
  {
    if s[0] != x {
      RemoveKeeps(s[1..], n, x);
    }
  }

  lemma {:induction false} RemoveConcat(a: seq<NodeId>, b: seq<NodeId>, n: NodeId)
    ensures Remove(a + b, n) == Remove(a, n) + Remove(b, n)
  {
    if a == [] {
      assert a + b == b;
    } else {
      assert (a + b)[0] == a[0] && (a + b)[1..] == a[1..] + b;
      RemoveConcat(a[1..], b, n);
      var h := if a[0] == n then [] else [a[0]];
      assert Remove(a + b, n) == h + Remove(a[1..] + b, n);
      assert Remove(a, n) == h + Remove(a[1..], n);
    }
  }

  lemma {:induction false} RemoveDistinct(s: seq<NodeId>, n: NodeId)
    requires Distinct(s)
    ensures Distinct(Remove(s, n))
  {
    if s != [] {
      RemoveDistinct(s[1..], n);
      assert s[0] !in s[1..] by {
        forall j | 0 <= j < |s[1..]| ensures s[1..][j] != s[0] {
          assert s[1..][j] == s[j + 1];
        }
      }
      if s[0] != n {
        ConsDistinct(s[0], Remove(s[1..], n));
      }
    }
  }

  /** Putting a new node `n` at position `i` keeps a list duplicate-free. */
  lemma InsertAtDistinct(s: seq<NodeId>, i: nat, n: NodeId)
    requires Distinct(s) && n !in s && i <= |s|
    ensures Distinct(s[..i] + [n] + s[i..])
    ensures forall x :: x in s[..i] + [n] + s[i..] <==> x in s || x == n
  {
    var r := s[..i] + [n] + s[i..];
    assert s == s[..i] + s[i..];
    forall a, b | 0 <= a < b < |r| ensures r[a] != r[b] {
      if a < i && b > i {
        assert r[a] == s[a] && r[b] == s[b - 1];
      } else if a < i && b < i {
        assert r[a] == s[a] && r[b] == s[b];
      } else if a > i {
        assert r[a] == s[a - 1] && r[b] == s[b - 1];
      } else if a == i {
        assert r[b] == s[b - 1];
      } else {
        assert r[a] == s[a];
      }
    }
  }

  /** `node.nextSibling`: the node right after `n` among its parent's children, if any. */
  function NextSibling(s: seq<NodeId>, n: NodeId): (r: Option<NodeId>)
    ensures r.Some? ==> r.value in s && IndexOf(s, n).Some? && IndexOf(s, n).value + 1 < |s|
  {
    match IndexOf(s, n)
    case None => None
    case Some(i) => if i + 1 < |s| then Some(s[i + 1]) else None
  }

  /** The sibling after the first occurrence of `s[i]` is `s[i + 1]`. */
  lemma NextSiblingAt(s: seq<NodeId>, i: nat)
    requires i + 1 < |s| && s[i] !in s[..i]
    ensures s[i] in s && NextSibling(s, s[i]) == Some(s[i + 1])
  {
    IndexOfFirst(s, i);
  }

  // ---------------------------------------------------------------------------
  // Moves

  /** Take `n` out of whatever child list holds it (the first half of every DOM insertion). */
  function Detach(d: Tree, n: NodeId): (r: Tree)
    ensures r.Keys == d.Keys
    ensures forall p :: p in r ==> n !in r[p]
  {
    map p | p in d :: Remove(d[p], n)
  }

  /** `parent.appendChild(n)` / `parent.append(n)`: `n` becomes the last child of `p`. */
  function AppendChild(d: Tree, p: NodeId, n: NodeId): (r: Tree)
    requires p in d
    ensures r.Keys == d.Keys
    ensures r[p] != [] && Last(r[p]) == n
    ensures forall q :: q in r && q != p ==> n !in r[q]
  {
    var e := Detach(d, n);
    e[p := e[p] + [n]]
  }

  /**
   * `parent.insertBefore(n, ref)`: `n` lands right before `ref` in the child list of
   * `p`. `None` is the DOM's NotFoundError, raised when `ref` is not a child of `p`.
   * Inserting `n` before itself leaves it where it is (the reference becomes its own
   * next sibling).
   */
  function InsertBefore(d: Tree, p: NodeId, n: NodeId, ref: NodeId): (r: Option<Tree>)
    requires p in d
    ensures r.None? <==> ref !in d[p]
    ensures r.Some? ==> r.value.Keys == d.Keys
    ensures r.Some? && ref != n ==> n in r.value[p] && NextSibling(r.value[p], n) == Some(ref)
    ensures r.Some? && ref == n ==> r.value == d
  {
    if ref !in d[p] then None
    else if ref == n then Some(d)
    else
      var e := Detach(d, n);
      RemoveKeeps(d[p], n, ref);
      var i := IndexOf(e[p], ref).value;
      var s := e[p][..i] + [n] + e[p][i..];
      NextSiblingAt(s, i);
      Some(e[p := s])
  }

  lemma DetachWellFormed(d: Tree, n: NodeId)
    requires WellFormed(d)
    ensures WellFormed(Detach(d, n))
  {
    forall p | p in d {
      RemoveDistinct(d[p], n);
    }
  }

  /**
   * Giving `p` a new child list that holds its old children plus the detached node
   * `n`, without repeats, keeps the tree well formed.
   */
  lemma UpdateWellFormed(e: Tree, p: NodeId, n: NodeId, s: seq<NodeId>)
    requires WellFormed(e) && p in e && n in e
    requires forall q :: q in e ==> n !in e[q]
    requires Distinct(s) && forall x :: x in s ==> x in e[p] || x == n
    ensures WellFormed(e[p := s])
  {
  }

  lemma AppendChildWellFormed(d: Tree, p: NodeId, n: NodeId)
    requires WellFormed(d) && p in d && n in d
    ensures WellFormed(AppendChild(d, p, n))
  {
    DetachWellFormed(d, n);
    var e := Detach(d, n);
    InsertAtDistinct(e[p], |e[p]|, n);
    assert e[p][..|e[p]|] + [n] + e[p][|e[p]|..] == e[p] + [n];
    UpdateWellFormed(e, p, n, e[p] + [n]);
  }

  /**
   * `to.appendChild(n)` for a node whose parent is known to be `from`: only the two
   * child lists change (see `MoveChildIsAppend`).
   */
  function MoveChild(d: Tree, from: NodeId, to: NodeId, n: NodeId): (r: Tree)
    requires from in d && to in d
    ensures r.Keys == d.Keys && r[to] != [] && Last(r[to]) == n
  {
    var e := d[from := Remove(d[from], n)];
    e[to := e[to] + [n]]
  }

  /** In a well-formed tree, moving a child of `from` is exactly `appendChild`. */
  lemma MoveChildIsAppend(d: Tree, from: NodeId, to: NodeId, n: NodeId)
    requires WellFormed(d) && from in d && n in d[from] && to in d
    ensures MoveChild(d, from, to, n) == AppendChild(d, to, n)
  {
    forall q | q in d && q != from
      ensures Remove(d[q], n) == d[q]
    {
      assert n !in d[q];
    }
    assert Detach(d, n) == d[from := Remove(d[from], n)];
  }

  lemma MoveChildWellFormed(d: Tree, from: NodeId, to: NodeId, n: NodeId)
    requires WellFormed(d) && from in d && n in d[from] && to in d
    ensures WellFormed(MoveChild(d, from, to, n))
  {
    MoveChildIsAppend(d, from, to, n);
    AppendChildWellFormed(d, to, n);
  }

  lemma InsertBeforeWellFormed(d: Tree, p: NodeId, n: NodeId, ref: NodeId)
    requires WellFormed(d) && p in d && n in d && InsertBefore(d, p, n, ref).Some?
    ensures WellFormed(InsertBefore(d, p, n, ref).value)
  {
    if ref != n {
      DetachWellFormed(d, n);
      var e := Detach(d, n);
      RemoveKeeps(d[p], n, ref);
      var i := IndexOf(e[p], ref).value;
      InsertAtDistinct(e[p], i, n);
      UpdateWellFormed(e, p, n, e[p][..i] + [n] + e[p][i..]);
    }
  }

  /** In a duplicate-free list the element at `i` occurs neither before nor after `i`. */
  lemma DistinctAt(s: seq<NodeId>, i: nat)
    requires Distinct(s) && i < |s|
    ensures s[i] !in s[..i] && s[i] !in s[i + 1..]
  {
    var R := s[i + 1..];
    forall j | 0 <= j < |R| ensures R[j] != s[i] {
      assert R[j] == s[i + 1 + j];
    }
    forall j | 0 <= j < i ensures s[..i][j] != s[i] {
      assert s[..i][j] == s[j];
    }
  }

  lemma RemoveSingle(n: NodeId)
    ensures Remove([n], n) == []
  {
    assert [n][1..] == [];
  }

  /** Removing the element at `i` from a duplicate-free list leaves the rest in order. */
  lemma RemoveAt(s: seq<NodeId>, i: nat)
    requires Distinct(s) && i < |s|
    ensures Remove(s, s[i]) == s[..i] + s[i + 1..]
  {
    var n, L, R := s[i], s[..i], s[i + 1..];
    assert s == L + [n] + R;
    DistinctAt(s, i);
    RemoveSingle(n);
    RemoveConcat(L + [n], R, n);
    RemoveConcat(L, [n], n);
  }

  /** Detaching a child `n` of `p` only shortens the child list of `p`. */
  lemma DetachChild(d: Tree, p: NodeId, n: NodeId, i: nat)
    requires p in d && i < |d[p]| && d[p][i] == n && Distinct(d[p])
    requires forall q :: q in d && q != p ==> n !in d[q]
    ensures Detach(d, n) == d[p := d[p][..i] + d[p][i + 1..]]
  {
    RemoveAt(d[p], i);
    var e := Detach(d, n);
    var d' := d[p := d[p][..i] + d[p][i + 1..]];
    forall q | q in d ensures e[q] == d'[q] {
      if q != p {
        assert n !in d[q];
      }
    }
    assert e.Keys == d'.Keys;
  }

  /** A node appended somewhere is detached again to the same tree. */
  lemma DetachAfterAppend(d: Tree, slot: NodeId, n: NodeId)
    requires slot in d
    ensures Detach(AppendChild(d, slot, n), n) == Detach(d, n)
  {
    var e := Detach(d, n);
    var moved := AppendChild(d, slot, n);
    forall q | q in moved ensures Remove(moved[q], n) == e[q] {
      if q == slot {
        RemoveConcat(e[slot], [n], n);
      }
    }
  }

  /**
   * The relocation engine's promise: moving a child `n` of `p` into the slot, then
   * putting it back before its recorded next sibling (or at the end when it had
   * none), gives back exactly the tree before the move, whether `n` was the first,
   * a middle or the last child, and wherever the slot is.
   */
  lemma RelocateThenRestore(d: Tree, p: NodeId, n: NodeId, slot: NodeId)
    requires WellFormed(d) && p in d && n in d[p] && slot in d
    ensures NextSibling(d[p], n).Some? ==>
      InsertBefore(AppendChild(d, slot, n), p, n, NextSibling(d[p], n).value) == Some(d)
    ensures NextSibling(d[p], n).None? ==>
      AppendChild(AppendChild(d, slot, n), p, n) == d
  {
    assert forall q :: q in d && q != p ==> n !in d[q];
    var i := IndexOf(d[p], n).value;
    DetachChild(d, p, n, i);
    DetachAfterAppend(d, slot, n);
    if i + 1 < |d[p]| {
      RestoreBefore(d, AppendChild(d, slot, n), p, i);
    } else {
      RestoreAtEnd(d, AppendChild(d, slot, n), p, i);
    }
  }

  /** Reinserting before the old next sibling undoes the detach of a middle or first child. */
  lemma RestoreBefore(d: Tree, m: Tree, p: NodeId, i: nat)
    requires p in d && p in m && i + 1 < |d[p]| && Distinct(d[p])
    requires Detach(m, d[p][i]) == d[p := d[p][..i] + d[p][i + 1..]]
    ensures InsertBefore(m, p, d[p][i], d[p][i + 1]) == Some(d)
  {
    InsertBackAt(d[p], i);
    ReinsertBefore(d, m, p, d[p][i], d[p][i + 1], i, d[p][..i] + d[p][i + 1..]);
  }

  lemma ReinsertBefore(d: Tree, m: Tree, p: NodeId, n: NodeId, ref: NodeId, i: nat, t: seq<NodeId>)
    requires p in d && p in m && ref != n
    requires Detach(m, n) == d[p := t] && IndexOf(t, ref) == Some(i) && t[..i] + [n] + t[i..] == d[p]
    ensures InsertBefore(m, p, n, ref) == Some(d)
  {
    InsertBeforeAt(m, p, n, ref, i);
    assert d[p := t][p := t[..i] + [n] + t[i..]] == d;
  }


  /** Unfolding `InsertBefore` once the position of the reference is known. */
  lemma InsertBeforeAt(m: Tree, p: NodeId, n: NodeId, ref: NodeId, i: nat)
    requires p in m && ref != n && IndexOf(Detach(m, n)[p], ref) == Some(i)
    ensures var e := Detach(m, n);
      InsertBefore(m, p, n, ref) == Some(e[p := e[p][..i] + [n] + e[p][i..]])
  {
    assert ref in m[p];
  }

  /** In the list without element `i`, its old next sibling sits at `i`, and inserting there restores the list. */
  lemma InsertBackAt(s: seq<NodeId>, i: nat)
    requires Distinct(s) && i + 1 < |s|
    ensures s[i] != s[i + 1]
    ensures var t := s[..i] + s[i + 1..];
      IndexOf(t, s[i + 1]) == Some(i) && t[..i] + [s[i]] + t[i..] == s
  {
    var t := s[..i] + s[i + 1..];
    assert Distinct(t) by {
      RemoveAt(s, i);
      RemoveDistinct(s, s[i]);
    }
    assert IndexOf(t, s[i + 1]) == Some(i) by {
      assert t[i] == s[i + 1];
      IndexOfDistinct(t, i);
    }
    assert t[..i] + [s[i]] + t[i..] == s by {
      assert t[..i] == s[..i] && t[i..] == s[i + 1..];
    }
  }

  /** Appending again undoes the detach of a last child. */
  lemma RestoreAtEnd(d: Tree, m: Tree, p: NodeId, i: nat)
    requires p in d && p in m && i + 1 == |d[p]|
    requires Detach(m, d[p][i]) == d[p := d[p][..i] + d[p][i + 1..]]
    ensures AppendChild(m, p, d[p][i]) == d
  {
    assert d[p][..i] + d[p][i + 1..] + [d[p][i]] == d[p];
    assert d[p := d[p]] == d;
  }

  // ---------------------------------------------------------------------------
  // Parsed markup

  /**
   * Parsed markup: element `i` has children `kids[i]` and matches `labels[i]`; the
   * top-level elements are `roots`. Ids are local, `0 .. |kids| - 1`.
   */
  datatype Forest = Forest(kids: seq<seq<nat>>, roots: seq<nat>, labels: seq<set<string>>)

  /** Parsing always yields a forest: local ids in range, no repeats, one parent each. */
  ghost predicate ForestOk(f: Forest) {
    && |f.labels| == |f.kids|
    && (forall i, c :: 0 <= i < |f.kids| && c in f.kids[i] ==> c < |f.kids|)
    && (forall c :: c in f.roots ==> c < |f.kids|)
    && (forall i :: 0 <= i < |f.kids| ==> Distinct(f.kids[i]))
    && Distinct(f.roots)
    && (forall i, j, c :: 0 <= i < |f.kids| && 0 <= j < |f.kids| && c in f.kids[i] && c in f.kids[j] ==> i == j)
    && (forall i, c :: 0 <= i < |f.kids| && c in f.kids[i] ==> c !in f.roots)
  }

  function Shift(s: seq<nat>, off: nat): (r: seq<NodeId>)
    ensures |r| == |s| && forall j :: 0 <= j < |s| ==> r[j] == s[j] + off
  {
    seq(|s|, j requires 0 <= j < |s| => s[j] + off)
  }

  lemma ShiftMember(s: seq<nat>, off: nat, x: NodeId)
    ensures x in Shift(s, off) <==> x >= off && x - off in s
  {
    var r := Shift(s, off);
    if x in r {
      var j :| 0 <= j < |r| && r[j] == x;
      assert s[j] == x - off;
    }
    if x >= off && x - off in s {
      var j :| 0 <= j < |s| && s[j] == x - off;
      assert r[j] == x;
    }
  }

  lemma ShiftDistinct(s: seq<nat>, off: nat)
    requires Distinct(s)
    ensures Distinct(Shift(s, off))
  {
  }

  /** The parsed elements, renumbered from `base`. */
  function Body(f: Forest, base: NodeId): (b: Tree)
    ensures forall k :: k in b <==> base <= k < base + |f.kids|
    ensures forall i :: 0 <= i < |f.kids| ==> b[base + i] == Shift(f.kids[i], base)
  {
    BodyFrom(f, base, 0)
  }

  function BodyFrom(f: Forest, base: NodeId, i: nat): (b: Tree)
    requires i <= |f.kids|
    ensures forall k :: k in b <==> base + i <= k < base + |f.kids|
    ensures forall j :: i <= j < |f.kids| ==> b[base + j] == Shift(f.kids[j], base)
    decreases |f.kids| - i
  {
    if i == |f.kids| then map[] else BodyFrom(f, base, i + 1)[base + i := Shift(f.kids[i], base)]
  }

  /**
   * `at.insertAdjacentHTML('beforeend', markup)`: the forest's elements become nodes
   * `base .. base + |kids| - 1` and its top-level elements are appended to `at`.
   */
  function Graft(d: Tree, f: Forest, base: NodeId, at: NodeId): (r: Tree)
    requires at in d
    ensures forall k :: k in r <==> k in d || base <= k < base + |f.kids|
    ensures r[at] == d[at] + Shift(f.roots, base)
    ensures forall p :: p in d && p != at ==> r[p] == d[p]
    ensures forall p :: p in r && p !in d ==> p >= base && r[p] == Shift(f.kids[p - base], base)
  {
    var b := Body(f, base);
    var r := (b + d)[at := d[at] + Shift(f.roots, base)];
    assert forall p :: p in r && p !in d ==> r[p] == b[base + (p - base)];
    r
  }

  /** The selectors the grafted elements match, under their new ids. */
  function GraftLabels(l: Labels, f: Forest, base: NodeId, i: nat): Labels
    requires i <= |f.labels|
    decreases |f.labels| - i
  {
    if i == |f.labels| then l else GraftLabels(l, f, base, i + 1)[base + i := f.labels[i]]
  }

  /** Grafting leaves the selectors of the nodes below `base` alone. */
  lemma {:induction false} GraftLabelsBelow(l: Labels, f: Forest, base: NodeId, i: nat, n: NodeId)
    requires i <= |f.labels| && n < base
    ensures LabelsOf(GraftLabels(l, f, base, i), n) == LabelsOf(l, n)
    decreases |f.labels| - i
  {
    if i < |f.labels| {
      GraftLabelsBelow(l, f, base, i + 1, n);
    }
  }

  /** Every node of the old tree is below `base`, and so is every old child. */
  ghost predicate Below(d: Tree, base: NodeId) {
    forall k :: k in d ==> k < base
  }

  lemma GraftClosed(d: Tree, f: Forest, base: NodeId, at: NodeId)
    requires WellFormed(d) && ForestOk(f) && at in d && Below(d, base)
    ensures var r := Graft(d, f, base, at);
      forall p :: p in r ==> forall c :: c in r[p] ==> c in r
  {
    var r := Graft(d, f, base, at);
    forall p, c | p in r && c in r[p] ensures c in r {
      if p == at {
        if c !in d[at] {
          ShiftMember(f.roots, base, c);
        }
      } else if p !in d {
        ShiftMember(f.kids[p - base], base, c);
      }
    }
  }

  lemma GraftDistinct(d: Tree, f: Forest, base: NodeId, at: NodeId)
    requires WellFormed(d) && ForestOk(f) && at in d && Below(d, base)
    ensures var r := Graft(d, f, base, at);
      forall p :: p in r ==> Distinct(r[p])
  {
    var r := Graft(d, f, base, at);
    forall p | p in r ensures Distinct(r[p]) {
      if p == at {
        ShiftDistinct(f.roots, base);
        var a, t := d[at], Shift(f.roots, base);
        forall i, j | 0 <= i < j < |a + t| ensures (a + t)[i] != (a + t)[j] {
          if i < |a| && j >= |a| {
            assert (a + t)[i] in d[at] && (a + t)[j] == t[j - |a|];
          }
        }
      } else if p !in d {
        ShiftDistinct(f.kids[p - base], base);
      }
    }
  }

  /** Where a new node sits after grafting: under `at` if top-level, else under its parsed parent. */
  lemma GraftParentOfNew(d: Tree, f: Forest, base: NodeId, at: NodeId, p: NodeId, c: NodeId)
    requires WellFormed(d) && ForestOk(f) && at in d && Below(d, base)
    requires c >= base && p in Graft(d, f, base, at) && c in Graft(d, f, base, at)[p]
    ensures || (p == at && c - base in f.roots)
            || (p !in d && p - base < |f.kids| && c - base in f.kids[p - base])
  {
    if p == at {
      ShiftMember(f.roots, base, c);
    } else if p !in d {
      ShiftMember(f.kids[p - base], base, c);
    }
  }

  lemma GraftUnique(d: Tree, f: Forest, base: NodeId, at: NodeId)
    requires WellFormed(d) && ForestOk(f) && at in d && Below(d, base)
    ensures var r := Graft(d, f, base, at);
      forall p, q, c :: p in r && q in r && c in r[p] && c in r[q] ==> p == q
  {
    var r := Graft(d, f, base, at);
    forall p, q, c | p in r && q in r && c in r[p] && c in r[q] ensures p == q {
      if c < base {
        OldChild(d, f, base, at, p, c);
        OldChild(d, f, base, at, q, c);
      } else {
        GraftParentOfNew(d, f, base, at, p, c);
        GraftParentOfNew(d, f, base, at, q, c);
      }
    }
  }

  /** An old node keeps its old parent. */
  lemma OldChild(d: Tree, f: Forest, base: NodeId, at: NodeId, p: NodeId, c: NodeId)
    requires at in d && c < base
    requires p in Graft(d, f, base, at) && c in Graft(d, f, base, at)[p]
    ensures p in d && c in d[p]
  {
    if p == at {
      if c !in d[at] {
        ShiftMember(f.roots, base, c);
      }
    }
  }

  lemma GraftWellFormed(d: Tree, f: Forest, base: NodeId, at: NodeId)
    requires WellFormed(d) && ForestOk(f) && at in d && Below(d, base)
    ensures WellFormed(Graft(d, f, base, at))
  {
    GraftClosed(d, f, base, at);
    GraftDistinct(d, f, base, at);
    GraftUnique(d, f, base, at);
  }

  // ---------------------------------------------------------------------------
  // Queries

  /** The descendants reached from `kids` in document (pre-)order, at most `fuel` levels deep. */
  function Preorder(d: Tree, kids: seq<NodeId>, fuel: nat): (r: seq<NodeId>)
    decreases fuel, |kids|
  {
    if fuel == 0 || kids == [] then []
    else [kids[0]] + (if kids[0] in d then Preorder(d, d[kids[0]], fuel - 1) else []) + Preorder(d, kids[1..], fuel)
  }

  /** Every node the walk reaches is one of `kids` or the child of some node. */
  lemma {:induction false} PreorderDescends(d: Tree, kids: seq<NodeId>, fuel: nat)
    ensures forall x :: x in Preorder(d, kids, fuel) ==> x in kids || HasParent(d, x)
    decreases fuel, |kids|
  {
    if fuel != 0 && kids != [] {
      if kids[0] in d {
        PreorderDescends(d, d[kids[0]], fuel - 1);
      }
      PreorderDescends(d, kids[1..], fuel);
      forall x | x in Preorder(d, kids[1..], fuel) ensures x in kids || HasParent(d, x) {
        if x in kids[1..] {
          assert x in kids;
        }
      }
    }
  }

  function LabelsOf(l: Labels, n: NodeId): set<string> {
    if n in l then l[n] else {}
  }

  function FirstMatch(s: seq<NodeId>, l: Labels, sel: string): (r: Option<NodeId>)
    ensures r.Some? ==> r.value in s && sel in LabelsOf(l, r.value)
    ensures r.None? ==> forall x :: x in s ==> sel !in LabelsOf(l, x)
  {
    if s == [] then None
    else if sel in LabelsOf(l, s[0]) then Some(s[0])
    else FirstMatch(s[1..], l, sel)
  }

  /** `FirstMatch` of a concatenation searches the second part only when the first has no match. */
  lemma {:induction false} FirstMatchConcat(a: seq<NodeId>, b: seq<NodeId>, l: Labels, sel: string)
    ensures FirstMatch(a + b, l, sel) == if FirstMatch(a, l, sel).Some? then FirstMatch(a, l, sel) else FirstMatch(b, l, sel)
    decreases |a|
  {
    if a != [] {
      assert (a + b)[0] == a[0] && (a + b)[1..] == a[1..] + b;
      FirstMatchConcat(a[1..], b, l, sel);
    } else {
      assert a + b == b;
    }
  }

  /**
   * The depth-first walk behind `querySelector`: the first node matching `sel` among
   * `kids` and their descendants, a node before its own descendants and those before
   * its next sibling.
   */
  function Find(d: Tree, l: Labels, kids: seq<NodeId>, sel: string, fuel: nat): (r: Option<NodeId>)
    ensures r.Some? ==> (r.value in kids || HasParent(d, r.value)) && sel in LabelsOf(l, r.value)
    decreases fuel, |kids|
  {
    if fuel == 0 || kids == [] then None
    else if sel in LabelsOf(l, kids[0]) then Some(kids[0])
    else
      var below := if kids[0] in d then Find(d, l, d[kids[0]], sel, fuel - 1) else None;
      if below.Some? then
        assert below.value in d[kids[0]] ==> HasParent(d, below.value);
        below
      else Find(d, l, kids[1..], sel, fuel)
  }

  /** The walk finds exactly the first match in document order. */
  lemma {:induction false} FindIsFirstInPreorder(d: Tree, l: Labels, kids: seq<NodeId>, sel: string, fuel: nat)
    ensures Find(d, l, kids, sel, fuel) == FirstMatch(Preorder(d, kids, fuel), l, sel)
    decreases fuel, |kids|
  {
    if fuel != 0 && kids != [] {
      var below := if kids[0] in d then Preorder(d, d[kids[0]], fuel - 1) else [];
      var rest := Preorder(d, kids[1..], fuel);
      assert Preorder(d, kids, fuel) == [kids[0]] + (below + rest);
      FirstMatchConcat(below, rest, l, sel);
      if kids[0] in d {
        FindIsFirstInPreorder(d, l, d[kids[0]], sel, fuel - 1);
      }
      FindIsFirstInPreorder(d, l, kids[1..], sel, fuel);
    }
  }

  /**
   * `root.querySelector(sel)`: the first descendant of `root`, in document order,
   * that matches `sel` (see `FindIsFirstInPreorder`). The walk is bounded by the
   * number of nodes, which reaches every descendant of a tree.
   */
  function QuerySelector(d: Tree, l: Labels, root: NodeId, sel: string): (r: Option<NodeId>)
    ensures r.Some? ==> HasParent(d, r.value) && sel in LabelsOf(l, r.value)
    ensures r.Some? ==> root in d && r.value in Preorder(d, d[root], |d|)
  {
    if root !in d then None
    else
      var found := Find(d, l, d[root], sel, |d|);
      assert found.Some? && found.value in d[root] ==> HasParent(d, found.value);
      FindIsFirstInPreorder(d, l, d[root], sel, |d|);
      found
  }

  /** `n` contains `m` (the DOM's HierarchyRequestError test for moving `n` under `m`). */
  predicate IsInclusiveAncestor(d: Tree, n: NodeId, m: NodeId) {
    n == m || (n in d && m in Preorder(d, d[n], |d|))
  }

  /** No node contains its own parent: the child lists form a tree, as in every DOM. */
  ghost predicate Acyclic(d: Tree) {
    forall p, c :: p in d && c in d[p] ==> !IsInclusiveAncestor(d, c, p)
  }

  /** The walk only reads the child lists of the nodes it visits. */
  lemma {:induction false} PreorderAgree(d: Tree, m: Tree, kids: seq<NodeId>, fuel: nat)
    requires forall x :: x in Preorder(d, kids, fuel) ==> (x in d <==> x in m) && (x in d ==> m[x] == d[x])
    ensures Preorder(m, kids, fuel) == Preorder(d, kids, fuel)
    decreases fuel, |kids|
  {
    if fuel != 0 && kids != [] {
      var k := kids[0];
      var below := if k in d then Preorder(d, d[k], fuel - 1) else [];
      assert Preorder(d, kids, fuel) == [k] + below + Preorder(d, kids[1..], fuel);
      if k in d {
        PreorderAgree(d, m, d[k], fuel - 1);
      }
      PreorderAgree(d, m, kids[1..], fuel);
    }
  }

  /**
   * Moving `n` from `from` to `to`, neither of them inside `n`, leaves what `n`
   * contains as it was: a node outside `n` stays outside.
   */
  lemma MoveKeepsOutside(d: Tree, from: NodeId, to: NodeId, n: NodeId, x: NodeId)
    requires from in d && to in d && n in d
    requires !IsInclusiveAncestor(d, n, from) && !IsInclusiveAncestor(d, n, to) && !IsInclusiveAncestor(d, n, x)
    ensures !IsInclusiveAncestor(MoveChild(d, from, to, n), n, x)
  {
    var m := MoveChild(d, from, to, n);
    PreorderAgree(d, m, d[n], |d|);
  }
}

=== FILE: json_merge.dfy ===
/**
 * The option merge `deepMerge` of the popup plugin, over JSON-like values.
 * Numbers are integers; `structuredClone` is the identity on values.
 */
module JsonMerge {
  import opened Common

  datatype JVal =
    | Null
    | Bool(b: bool)
    | Int(i: int)
    | Str(s: string)
    | Arr(items: seq<JVal>)
    | Obj(fields: map<string, JVal>)

  /** The tag that `Object.prototype.toString` reports, lower-cased (`getType`). */
  datatype Tag = NullTag | BooleanTag | NumberTag | StringTag | ArrayTag | ObjectTag

  function TypeOf(v: JVal): Tag {
    match v
    case Null => NullTag
    case Bool(_) => BooleanTag
    case Int(_) => NumberTag
    case Str(_) => StringTag
    case Arr(_) => ArrayTag
    case Obj(_) => ObjectTag
  }

  predicate IsContainer(t: Tag) {
    t == ArrayTag || t == ObjectTag
  }

  /**
   * One step of the loop of `deepMerge`: fold the later argument `obj` into the
   * accumulated `acc`. Arrays concatenate, objects merge key by key, and anything
   * else (a scalar, or a type mismatch) is replaced by the later value.
   */
  function Merge(acc: JVal, obj: JVal): (r: JVal)
    decreases obj, 1
    ensures TypeOf(r) == TypeOf(obj)
    ensures TypeOf(acc) != TypeOf(obj) || !IsContainer(TypeOf(obj)) ==> r == obj
    ensures acc.Arr? && obj.Arr? ==>
      |r.items| == |acc.items| + |obj.items| &&
      r.items[..|acc.items|] == acc.items && r.items[|acc.items|..] == obj.items
    ensures acc.Obj? && obj.Obj? ==> r.fields.Keys == acc.fields.Keys + obj.fields.Keys
  {
    if TypeOf(acc) != TypeOf(obj) then obj
    else match obj
      case Arr(items) => Arr(acc.items + items)
      case Obj(fields) => Obj(MergeFields(acc.fields, fields))
      case _ => obj
  }

  /**
   * `mergeObj`: every entry of `obj` is written into (a clone of) `clone`, recursing
   * when the key is already present with the same container type.
   */
  function MergeFields(clone: map<string, JVal>, obj: map<string, JVal>): (r: map<string, JVal>)
    decreases Obj(obj), 0
    ensures r.Keys == clone.Keys + obj.Keys
    ensures forall k :: k in clone && k !in obj ==> r[k] == clone[k]
    ensures forall k :: k in obj && k !in clone ==> r[k] == obj[k]
    ensures forall k :: k in obj && k in clone ==> r[k] == Merge(clone[k], obj[k])
  {
    map k | k in clone.Keys + obj.Keys ::
      if k in obj then
        if k in clone && TypeOf(clone[k]) == TypeOf(obj[k]) && IsContainer(TypeOf(obj[k]))
        then Merge(clone[k], obj[k])
        else obj[k]
      else clone[k]
  }

  /**
   * The value `deepMerge(acc, ...rest)` returns: the arguments folded from left to
   * right. Its type is always the type of the last argument.
   */
  function MergeAll(acc: JVal, rest: seq<JVal>): (r: JVal)
    decreases |rest|
    ensures rest == [] ==> r == acc
    ensures rest != [] ==> TypeOf(r) == TypeOf(Last(rest))
  {
    if rest == [] then acc else MergeAll(Merge(acc, rest[0]), rest[1..])
  }

  /** Folding one more argument is one more `Merge` step. */
  lemma {:induction false} MergeAllSnoc(acc: JVal, rest: seq<JVal>, x: JVal)
    ensures MergeAll(acc, rest + [x]) == Merge(MergeAll(acc, rest), x)
    decreases |rest|
  {
    if rest != [] {
      assert (rest + [x])[1..] == rest[1..] + [x];
      MergeAllSnoc(Merge(acc, rest[0]), rest[1..], x);
    }
  }

  /**
   * `deepMerge(...objs)`: the first argument is cloned and each later one folded into
   * it. With no argument at all the result is `undefined`, here `None`.
   */
  method DeepMerge(objs: seq<JVal>) returns (r: Option<JVal>)
    ensures objs == [] <==> r.None?
    ensures objs != [] ==> r == Some(MergeAll(objs[0], objs[1..]))
    ensures objs != [] ==> TypeOf(r.value) == TypeOf(Last(objs))
  {
    if objs == [] {
      return None;
    }
    var clone := objs[0];
    var i := 1;
    while i < |objs|
      invariant 1 <= i <= |objs|
      invariant clone == MergeAll(objs[0], objs[1..i])
    {
      MergeAllSnoc(objs[0], objs[1..i], objs[i]);
      assert objs[1..i + 1] == objs[1..i] + [objs[i]];
      clone := Merge(clone, objs[i]);
      i := i + 1;
    }
    assert objs[1..i] == objs[1..];
    return Some(clone);
  }

  /**
   * When the last argument is a scalar, whatever came before, the merge returns it
   * unchanged: a later scalar always wins.
   */
  lemma {:induction false} LaterScalarWins(acc: JVal, rest: seq<JVal>)
    requires rest != [] && !IsContainer(TypeOf(Last(rest)))
    ensures MergeAll(acc, rest) == Last(rest)
    decreases |rest|
  {
    if |rest| > 1 {
      assert Last(rest[1..]) == Last(rest);
      LaterScalarWins(Merge(acc, rest[0]), rest[1..]);
    }
  }

  /** The empty array and the empty object are neutral on either side of a merge. */
  lemma EmptyContainersAreNeutral(v: JVal)
    ensures v.Arr? ==> Merge(Arr([]), v) == v && Merge(v, Arr([])) == v
    ensures v.Obj? ==> Merge(Obj(map[]), v) == v && Merge(v, Obj(map[])) == v
  {
    if v.Arr? {
      assert [] + v.items == v.items;
      assert v.items + [] == v.items;
    }
    if v.Obj? {
      assert MergeFields(map[], v.fields) == v.fields;
      assert MergeFields(v.fields, map[]) == v.fields;
    }
  }

  /** Looking up a key of an object; `undefined` on anything else or a missing key. */
  function Member(v: JVal, key: string): (r: Option<JVal>)
    ensures r.Some? <==> v.Obj? && key in v.fields
  {
    if v.Obj? && key in v.fields then Some(v.fields[key]) else None
  }

  /** JavaScript truthiness of a value that may be `undefined`. */
  predicate Truthy(v: Option<JVal>) {
    match v
    case None => false
    case Some(Null) => false
    case Some(Bool(b)) => b
    case Some(Int(n)) => n != 0
    case Some(Str(s)) => s != ""
    case Some(_) => true
  }

  /** The built-in defaults of the plugin. */
  const Defaults: JVal := Obj(map[
    "preload" := Bool(true),
    "autoplayVideos" := Bool(true),
    "entranceAnimation" := Bool(true),
    "baseInit" := Arr([Str("#wm-popup=")])
  ])

  /** `window.wmPopupSettings || {}`: an unset or falsy setting becomes the empty object. */
  function UserParams(settings: Option<JVal>): (r: JVal)
    ensures Truthy(settings) ==> r == settings.value
    ensures !Truthy(settings) ==> r == Obj(map[])
  {
    if Truthy(settings) then settings.value else Obj(map[])
  }

  /**
   * What `init` computes for the options: an object setting keeps every default key,
   * keeps the default wherever it is silent, appends its own `baseInit` entries after
   * the default one, and any other setting replaces the defaults wholesale.
   */
  lemma OptionsFromSettings(user: JVal)
    ensures user.Obj? ==> MergeAll(Defaults, [user]).Obj?
    ensures user.Obj? ==> MergeAll(Defaults, [user]).fields.Keys == Defaults.fields.Keys + user.fields.Keys
    ensures user.Obj? ==> forall k :: k in Defaults.fields && k !in user.fields ==>
      MergeAll(Defaults, [user]).fields[k] == Defaults.fields[k]
    ensures user.Obj? && "baseInit" in user.fields && user.fields["baseInit"].Arr? ==>
      MergeAll(Defaults, [user]).fields["baseInit"] == Arr([Str("#wm-popup=")] + user.fields["baseInit"].items)
    ensures !user.Obj? ==> MergeAll(Defaults, [user]) == user
  {
    var m := MergeAll(Defaults, [user]);
    assert m == Merge(Defaults, user);
  }
}

=== FILE: popup.dfy ===
/**
 * The `wmPopup` module closure: the popup registry, the open/close state and the
 * part of the page the plugin moves nodes around in, with `init`, `render`, `open`
 * and `close` and the private steps they rely on.
 */
module Popup {
  import opened Common
  import opened JsonMerge
  import opened Dom
  import opened Registry
  import opened Scripts

  /** `.wm-popup-content`, the node that receives every popup's markup. */
  const Content: NodeId := 0

  /** Where the shared `.wm-popup-container` sits: `#sections > .page-section:last-child` or `#siteWrapper`. */
  datatype Host = PopupParent | SiteWrapper

  /** The exception a public call ends with. */
  datatype Fault =
    | UnknownPopup       // `popups[id]` is undefined
    | BadUrl             // the URL constructor rejected a trigger
    | BundleLoadFailed   // `loadSiteBundle` rejected
    | MissingContainer   // `popups[id].container` was never set (its build failed)
    | TargetMissing      // the target selector matched nothing
    | MissingSlot        // `singleBlockContainer` was never set
    | HierarchyRequest   // the target contains its own destination
    | NoSharedContainer  // `elements.container` is still null (`init` never ran)
    | NoActiveContainer  // `activeContainer` is undefined: nothing opened, or the opened popup has no wrapper
    | MissingRecord      // `returnElement` without a recorded relocation
    | SiblingNotChild    // the recorded next sibling is no longer a child of the parent

  datatype Outcome = Done | Threw(fault: Fault)

  /** What `returnElement` does to the page: the tree after the move, or the exception. */
  datatype Step = Moved(tree: Tree) | Failed(fault: Fault)

  /** Markup as the browser parses it: always a well-formed forest. */
  type Markup = f: Forest | ForestOk(f) witness Forest([], [], [])

  /** `fetchHTML(path)`: the `#sections` markup of the page at `path`, or `null`. */
  type Network = string -> Option<Markup>

  /** The URL a trigger resolves to: `root + href.split('=')[1]`, `undefined` spelt out. */
  function TriggerUrl(root: string, href: string): (r: string)
    ensures |root| <= |r| && r[..|root|] == root
    ensures '=' !in href ==> r[|root|..] == "undefined"
    ensures '=' in href ==> '=' !in r[|root|..]
  {
    root + match SplitSecond(href) { case None => "undefined" case Some(v) => v }
  }

  /**
   * The `(path, hash)` pairs `setLinks` gets through: those of the leading triggers
   * whose URL parses, in document order, up to the first the URL constructor rejects.
   */
  function Accepted(root: string, hrefs: seq<string>, parse: string -> Option<Link>): (r: seq<Link>)
    ensures |r| <= |hrefs|
    decreases |hrefs|
  {
    if hrefs == [] then []
    else match parse(TriggerUrl(root, hrefs[0]))
      case None => []
      case Some(link) => [link] + Accepted(root, hrefs[1..], parse)
  }

  /**
   * The accepted pairs are the parsed URLs of the first triggers, one for one, and
   * the trigger right after them (if any) is the one whose URL was rejected.
   */
  lemma {:induction false} AcceptedSpec(root: string, hrefs: seq<string>, parse: string -> Option<Link>)
    ensures var r := Accepted(root, hrefs, parse);
      && (forall k :: 0 <= k < |r| ==> parse(TriggerUrl(root, hrefs[k])) == Some(r[k]))
      && (|r| < |hrefs| ==> parse(TriggerUrl(root, hrefs[|r|])).None?)
    decreases |hrefs|
  {
    if hrefs != [] && parse(TriggerUrl(root, hrefs[0])).Some? {
      AcceptedSpec(root, hrefs[1..], parse);
      var r := Accepted(root, hrefs, parse);
      assert r[1..] == Accepted(root, hrefs[1..], parse);
      forall k | 1 <= k < |r| ensures parse(TriggerUrl(root, hrefs[k])) == Some(r[k]) {
        assert hrefs[1..][k - 1] == hrefs[k] && r[1..][k - 1] == r[k];
      }
      if |r| < |hrefs| {
        assert hrefs[1..][|r| - 1] == hrefs[|r|];
      }
    }
  }

  /** One turn of the loop in `setLinks`: a rejected URL ends the accepted run, a parsed one extends it. */
  lemma AcceptedAdvance(root: string, hrefs: seq<string>, parse: string -> Option<Link>, i: nat, links: seq<Link>)
    requires i < |hrefs| && Accepted(root, hrefs, parse) == links + Accepted(root, hrefs[i..], parse)
    ensures parse(TriggerUrl(root, hrefs[i])).None? ==> Accepted(root, hrefs, parse) == links
    ensures parse(TriggerUrl(root, hrefs[i])).Some? ==>
      Accepted(root, hrefs, parse) == (links + [parse(TriggerUrl(root, hrefs[i])).value]) + Accepted(root, hrefs[i + 1..], parse)
  {
    assert hrefs[i..][0] == hrefs[i] && hrefs[i..][1..] == hrefs[i + 1..];
    var url := parse(TriggerUrl(root, hrefs[i]));
    if url.Some? {
      assert links + ([url.value] + Accepted(root, hrefs[i + 1..], parse))
        == (links + [url.value]) + Accepted(root, hrefs[i + 1..], parse);
    } else {
      assert links + [] == links;
    }
  }

  /** `b` is `a` with at most the build nodes (`container`, `slot`) of `id` changed. */
  predicate OnlyNodesOf(a: Popups, b: Popups, id: string) {
    && a.Keys == b.Keys
    && (forall p :: p in a && p != id ==> b[p] == a[p])
    && (id in a ==> b[id] == a[id].(container := b[id].container, slot := b[id].slot))
  }

  /** `b` is `a` with at most the relocation record of `id` changed. */
  predicate OnlyRecordOf(a: Popups, b: Popups, id: string) {
    && a.Keys == b.Keys
    && (forall p :: p in a && p != id ==> b[p] == a[p])
    && (id in a ==> b[id] == a[id].(record := b[id].record))
  }

  /**
   * `b` is `a` after some builds: the same keys, every entry keeps its path, selectors
   * and relocation record, and an entry that was built already is untouched.
   */
  predicate BuildsOnly(a: Popups, b: Popups) {
    && a.Keys == b.Keys
    && (forall p :: p in a ==> b[p].path == a[p].path && b[p].selectors == a[p].selectors && b[p].record == a[p].record)
    && (forall p :: p in a && a[p].init ==> b[p] == a[p])
  }

  /** The nodes an entry points to are nodes of the page, and its path is its key. */
  predicate EntryOk(p: string, e: Entry, nodes: set<NodeId>) {
    && e.path == p
    && (e.container.Some? ==> e.container.value in nodes)
    && (e.slot.Some? ==> e.slot.value in nodes)
    && (e.record.Some? ==> e.record.value.movedEl in nodes && e.record.value.returnParent in nodes)
  }

  ghost predicate RegistryOk(popups: Popups, nodes: set<NodeId>) {
    forall p :: p in popups ==> EntryOk(p, popups[p], nodes) && Distinct(popups[p].selectors)
  }

  /** The ghost fetch log holds each built popup once, and exactly the built ones. */
  ghost predicate LogOk(log: seq<string>, popups: Popups) {
    && Distinct(log)
    && (forall x :: x in log <==> x in popups && popups[x].init)
  }

  ghost predicate PageOk(d: Tree, next: NodeId) {
    WellFormed(d) && Content in d && Below(d, next)
  }

  /** How every selector on the `data-wm-popup` attribute starts. */
  const HolderPrefix: string := "[data-wm-popup=\""

  /**
   * `[data-wm-popup="id"]`: the selector of the wrapper `buildPopup` puts around a
   * popup's markup, which also matches every trigger `setLinks` marked with `id`.
   */
  function HolderSelector(id: string): (r: string)
    ensures IsHolderSelector(r)
  {
    HolderPrefix + id + "\"]"
  }

  predicate IsHolderSelector(s: string) {
    |HolderPrefix| <= |s| && s[..|HolderPrefix|] == HolderPrefix
  }

  /** Different ids give different selectors. */
  lemma HolderSelectorInjective(a: string, b: string)
    requires HolderSelector(a) == HolderSelector(b)
    ensures a == b
  {
    var n := |HolderPrefix|;
    assert a == HolderSelector(a)[n..n + |a|];
    assert b == HolderSelector(b)[n..n + |b|];
  }

  /**
   * `el.dataset.wmPopup = path` on the trigger at `at` (`None` for a trigger outside
   * the modelled part of the page): it then matches `[data-wm-popup="path"]` and no
   * other value of the attribute; nothing else changes.
   */
  function Mark(l: Labels, at: Option<NodeId>, path: string): (r: Labels)
    ensures at.None? ==> r == l
    ensures at.Some? ==> forall p :: HolderSelector(p) in LabelsOf(r, at.value) <==> p == path
    ensures at.Some? ==> forall s :: !IsHolderSelector(s) ==> (s in LabelsOf(r, at.value) <==> s in LabelsOf(l, at.value))
    ensures forall m: NodeId :: Some(m) != at ==> LabelsOf(r, m) == LabelsOf(l, m)
  {
    match at
    case None => l
    case Some(n) =>
      var r := l[n := (set s | s in LabelsOf(l, n) && !IsHolderSelector(s)) + {HolderSelector(path)}];
      assert forall p :: HolderSelector(p) in LabelsOf(r, n) ==> p == path by {
        forall p | HolderSelector(p) in LabelsOf(r, n) ensures p == path {
          HolderSelectorInjective(p, path);
        }
      }
      r
  }

  /** The marks `setLinks` writes on the triggers of the first `|links|` links, in order. */
  function MarkAll(l: Labels, at: seq<Option<NodeId>>, links: seq<Link>): (r: Labels)
    requires |links| <= |at|
    ensures forall m: NodeId :: Some(m) !in at[..|links|] ==> LabelsOf(r, m) == LabelsOf(l, m)
    decreases |links|
  {
    if links == [] then l
    else
      var k := |links| - 1;
      assert forall m: NodeId :: Some(m) !in at[..k + 1] ==> Some(m) !in at[..k] by {
        assert at[..k] <= at[..k + 1];
      }
      Mark(MarkAll(l, at, links[..k]), at[k], links[k].path)
  }

  /** One more trigger is one more `Mark` step. */
  lemma MarkAllSnoc(l: Labels, at: seq<Option<NodeId>>, links: seq<Link>, link: Link)
    requires |links| < |at|
    ensures MarkAll(l, at, links + [link]) == Mark(MarkAll(l, at, links), at[|links|], link.path)
  {
    assert (links + [link])[..|links|] == links;
  }

  /**
   * A trigger that no later trigger shares a node with ends up matching exactly
   * `[data-wm-popup="its path"]` among the attribute's selectors.
   */
  lemma {:induction false} MarkAllLast(l: Labels, at: seq<Option<NodeId>>, links: seq<Link>, k: nat)
    requires |links| <= |at| && k < |links| && at[k].Some? && at[k] !in at[k + 1..|links|]
    ensures forall p :: HolderSelector(p) in LabelsOf(MarkAll(l, at, links), at[k].value) <==> p == links[k].path
    decreases |links|
  {
    var last := |links| - 1;
    if k < last {
      assert at[last] in at[k + 1..|links|];
      assert at[k + 1..last] <= at[k + 1..|links|];
      assert links[..last][k] == links[k];
      MarkAllLast(l, at, links[..last], k);
    }
  }

  /**
   * A trigger marked for `links[k].path` matches `[data-wm-popup="path"]` before any
   * wrapper for that popup exists, so a wrapper query inside the content can find the
   * trigger instead.
   */
  lemma {:induction false} MarkedTriggerMatches(l: Labels, at: seq<Option<NodeId>>, links: seq<Link>, k: nat)
    requires |links| <= |at| && k < |links| && at[k].Some? && at[k] !in at[k + 1..|links|]
    ensures !Unmatched(MarkAll(l, at, links), HolderSelector(links[k].path))
  {
    MarkAllLast(l, at, links, k);
  }

  /** One empty element matching the selectors `labs`. */
  function Element(labs: set<string>): Markup {
    Forest([[]], [0], [labs])
  }

  /** `<div data-wm-popup="id"></div>` */
  function Holder(id: string): Markup {
    Element({HolderSelector(id)})
  }

  /** `<div class="single-block-container"></div>` */
  const SlotMarkup: Markup := Element({".single-block-container"})

  /** No node matches `sel`. */
  predicate Unmatched(l: Labels, sel: string) {
    forall n :: n in l ==> sel !in l[n]
  }

  /**
   * `after` is `before` with popup `id`'s wrapper recorded, a `[data-wm-popup="id"]`
   * node of `d`, and as its slot the first `.single-block-container` under that wrapper.
   */
  ghost predicate Mounted(before: Popups, after: Popups, id: string, d: Tree, l: Labels) {
    && id in before && id in after && after[id].container.Some?
    && after[id].container.value in d && HolderSelector(id) in LabelsOf(l, after[id].container.value)
    && after == before[id := before[id].(container := after[id].container,
                                         slot := QuerySelector(d, l, after[id].container.value, ".single-block-container"))]
  }

  /** `el.classList.add(c)`, where `cls` is the selector `.c` the class makes the element match. */
  function AddClass(l: Labels, n: NodeId, cls: string): (r: Labels)
    ensures LabelsOf(r, n) == LabelsOf(l, n) + {cls}
    ensures forall m :: m != n ==> LabelsOf(r, m) == LabelsOf(l, m)
  {
    l[n := LabelsOf(l, n) + {cls}]
  }

  /** The labels after `open` shows wrapper `w`: `single-block-only` when a target was moved, then `open`. */
  function OpenedLabels(l: Labels, w: NodeId, moved: bool): (r: Labels)
    ensures LabelsOf(r, w) == LabelsOf(l, w) + {".open"} + (if moved then {".single-block-only"} else {})
    ensures forall m :: m != w ==> LabelsOf(r, m) == LabelsOf(l, m)
  {
    AddClass(if moved then AddClass(l, w, ".single-block-only") else l, w, ".open")
  }

  /** `el.classList.remove(c)`, where `cls` is the selector `.c`. */
  function RemoveClass(l: Labels, n: NodeId, cls: string): (r: Labels)
    ensures LabelsOf(r, n) == LabelsOf(l, n) - {cls}
    ensures forall m :: m != n ==> LabelsOf(r, m) == LabelsOf(l, m)
  {
    l[n := LabelsOf(l, n) - {cls}]
  }

  /**
   * `rec` is what `open` records before moving `n`: the node, its parent and its
   * next sibling in `d`.
   */
  ghost predicate Recorded(d: Tree, rec: Option<Relocation>, n: NodeId) {
    && rec.Some? && rec.value.movedEl == n
    && rec.value.returnParent in d && n in d[rec.value.returnParent]
    && rec.value.nextSibling == NextSibling(d[rec.value.returnParent], n)
  }

  /**
   * `returnElement(key)`: an unknown key or a missing record throws; so does a moved
   * node that now contains its old parent (the DOM's HierarchyRequestError, checked
   * before the sibling). Otherwise the node goes back before its recorded next sibling
   * (which must still be a child of the parent), or to the end of the parent when it
   * had none.
   */
  function Returned(d: Tree, popups: Popups, key: string): (r: Step)
    requires key in popups && popups[key].record.Some? ==> popups[key].record.value.returnParent in d
    ensures r.Moved? ==> r.tree.Keys == d.Keys
  {
    if key !in popups then Failed(UnknownPopup)
    else match popups[key].record
      case None => Failed(MissingRecord)
      case Some(rec) =>
        if IsInclusiveAncestor(d, rec.movedEl, rec.returnParent) then Failed(HierarchyRequest)
        else match rec.nextSibling
        case Some(sibling) =>
          (match InsertBefore(d, rec.returnParent, rec.movedEl, sibling)
           case None => Failed(SiblingNotChild)
           case Some(t) => Moved(t))
        case None => Moved(AppendChild(d, rec.returnParent, rec.movedEl))
  }

  /**
   * When `returnElement` throws: the key is unknown, nothing was recorded, the node now
   * contains its old parent (`HierarchyRequestError`), or the recorded next sibling is
   * no longer a child of the parent; and which fault each of these gives.
   */
  lemma ReturnedFails(d: Tree, popups: Popups, key: string)
    requires key in popups && popups[key].record.Some? ==> popups[key].record.value.returnParent in d
    ensures Returned(d, popups, key).Failed? <==> (
      || key !in popups || popups[key].record.None?
      || (var rec := popups[key].record.value;
          || IsInclusiveAncestor(d, rec.movedEl, rec.returnParent)
          || (rec.nextSibling.Some? && rec.nextSibling.value !in d[rec.returnParent])))
    ensures key in popups && popups[key].record.Some? && Returned(d, popups, key).Failed? ==>
      var rec := popups[key].record.value;
      Returned(d, popups, key).fault == if IsInclusiveAncestor(d, rec.movedEl, rec.returnParent) then HierarchyRequest else SiblingNotChild
  {
  }

  /**
   * Returning a node that `open` recorded and moved into a slot outside it gives back
   * exactly the page before the move, whatever position the node had among its
   * siblings.
   */
  lemma ReturnUndoesRelocation(d: Tree, popups: Popups, key: string, n: NodeId, slot: NodeId)
    requires WellFormed(d) && Acyclic(d) && slot in d && key in popups && Recorded(d, popups[key].record, n)
    requires !IsInclusiveAncestor(d, n, slot)
    ensures Returned(MoveChild(d, popups[key].record.value.returnParent, slot, n), popups, key) == Moved(d)
  {
    var parent := popups[key].record.value.returnParent;
    ChildIsNode(d, n);
    MoveKeepsOutside(d, parent, slot, n, parent);
    MoveChildIsAppend(d, parent, slot, n);
    RelocateThenRestore(d, parent, n, slot);
  }

  /** Returning changes nothing but the tree, and keeps it well formed. */
  lemma ReturnedWellFormed(d: Tree, popups: Popups, key: string)
    requires WellFormed(d) && key in popups && popups[key].record.Some?
    requires popups[key].record.value.returnParent in d && popups[key].record.value.movedEl in d
    requires Returned(d, popups, key).Moved?
    ensures WellFormed(Returned(d, popups, key).tree)
  {
    var rec := popups[key].record.value;
    if rec.nextSibling.Some? {
      InsertBeforeWellFormed(d, rec.returnParent, rec.movedEl, rec.nextSibling.value);
    } else {
      AppendChildWellFormed(d, rec.returnParent, rec.movedEl);
    }
  }

  /** The key `popups[activeId]` reads: a null `activeId` becomes the string `"null"`. */
  function ActiveKey(activeId: Option<string>): (r: string)
    ensures activeId.Some? ==> r == activeId.value
    ensures activeId.None? ==> r == "null"
  {
    match activeId case Some(id) => id case None => "null"
  }

  /**
   * `after` is `before` with the target of entry `e` moved to the end of the
   * entry's slot, and the record holds where the target was.
   */
  ghost predicate Relocated(before: Tree, after: Tree, e: Entry) {
    && e.record.Some? && e.slot.Some?
    && Recorded(before, e.record, e.record.value.movedEl)
    && e.slot.value in before && !IsInclusiveAncestor(before, e.record.value.movedEl, e.slot.value)
    && after == MoveChild(before, e.record.value.returnParent, e.slot.value, e.record.value.movedEl)
  }

  /** Moving `n` into the slot of entry `e` succeeds: the slot exists and does not lie inside `n`. */
  ghost predicate CanMove(d: Tree, e: Entry, n: NodeId) {
    e.slot.Some? && !IsInclusiveAncestor(d, n, e.slot.value)
  }

  lemma ChildIsNode(d: Tree, n: NodeId)
    requires WellFormed(d) && HasParent(d, n)
    ensures n in d
  {
    var p :| p in d && n in d[p];
  }

  class Controller {
    var popups: Popups
    var initialized: bool
    var isOpen: bool
    var activeId: Option<string>
    var activeContainer: Option<NodeId>
    /** Where `elements.container` is, and whether it carries the `open` class. */
    var host: Host
    var sharedOpen: bool
    /** `buildContainer` has run: `elements.container` and `elements.popupContent` exist. */
    var containerBuilt: bool
    /** The part of the page inside `.wm-popup-content`, and the selectors its nodes match. */
    var dom: Tree
    var labels: Labels
    /** The next id a parsed element gets. */
    var nextId: NodeId
    var scriptsToLoad: seq<Queued>
    var options: JVal
    /** `defaults`, the options every merge starts from. */
    const defaults: JVal
    /** `window.wmPopupSettings || {}`, read once when the script loads. */
    const userParams: JVal
    /** The paths fetched so far, in order. */
    ghost var fetchLog: seq<string>

    /** Nothing a build changes has changed. */
    twostate predicate Unbuilt()
      reads this
    {
      popups == old(popups) && fetchLog == old(fetchLog) && dom == old(dom) && labels == old(labels)
      && nextId == old(nextId)
    }

    ghost predicate Valid()
      reads this`dom, this`nextId, this`popups, this`fetchLog, this`containerBuilt, this`initialized
    {
      && PageOk(dom, nextId) && RegistryOk(popups, dom.Keys) && LogOk(fetchLog, popups)
      && containerBuilt == initialized
    }

    /** The state when the script has loaded, before `init`. */
    constructor(settings: Option<JVal>)
      ensures Valid()
      ensures popups == map[] && !initialized && !isOpen && activeId.None? && activeContainer.None?
      ensures !containerBuilt && host == PopupParent && !sharedOpen && scriptsToLoad == [] && fetchLog == []
      ensures defaults == Defaults && userParams == UserParams(settings)
      ensures dom == map[Content := []] && labels == map[] && nextId == Content + 1 && options == Obj(map[])
    {
      popups := map[];
      initialized := false;
      isOpen := false;
      activeId := None;
      activeContainer := None;
      host := PopupParent;
      sharedOpen := false;
      containerBuilt := false;
      dom := map[Content := []];
      labels := map[];
      nextId := Content + 1;
      scriptsToLoad := [];
      options := Obj(map[]);
      defaults := Defaults;
      userParams := UserParams(settings);
      fetchLog := [];
    }

    /**
     * `setLinks()` over the triggers currently on the page: each trigger is marked with
     * its popup's path and registers that popup; a trigger whose URL is rejected aborts
     * the rest. `at[i]` is the node of the `i`-th trigger when it lies in the modelled
     * part of the page, `None` otherwise.
     */
    method SetLinks(root: string, hrefs: seq<string>, at: seq<Option<NodeId>>, parse: string -> Option<Link>)
      returns (outcome: Outcome)
      requires Valid() && |at| == |hrefs|
      modifies this`popups, this`labels
      ensures Valid()
      ensures popups == RegisterAll(old(popups), Accepted(root, hrefs, parse))
      ensures labels == MarkAll(old(labels), at, Accepted(root, hrefs, parse))
      ensures outcome.Done? <==> |Accepted(root, hrefs, parse)| == |hrefs|
      ensures outcome.Threw? ==> outcome.fault == BadUrl
    {
      ghost var links: seq<Link> := [];
      assert hrefs[0..] == hrefs;
      var i := 0;
      while i < |hrefs|
        invariant 0 <= i <= |hrefs| && |links| == i
        invariant Valid()
        invariant Accepted(root, hrefs, parse) == links + Accepted(root, hrefs[i..], parse)
        invariant popups == RegisterAll(old(popups), links)
        invariant labels == MarkAll(old(labels), at, links)
      {
        var url := Visit(root, hrefs[i], at[i], parse);
        AcceptedAdvance(root, hrefs, parse, i, links);
        if url.None? {
          return Threw(BadUrl);
        }
        RegisterAllSnoc(old(popups), links, url.value);
        MarkAllSnoc(old(labels), at, links, url.value);
        links := links + [url.value];
        i := i + 1;
      }
      assert Accepted(root, hrefs, parse) == links;
      outcome := Done;
    }

    /**
     * The `forEach` callback for one trigger: build its URL from the part of the `href`
     * after the first `=`; a rejected URL marks and registers nothing (the constructor
     * throws). An accepted one sets `data-wm-popup` on the trigger at `at`, then
     * registers its popup.
     */
    method Visit(root: string, href: string, at: Option<NodeId>, parse: string -> Option<Link>)
      returns (url: Option<Link>)
      requires Valid()
      modifies this`popups, this`labels
      ensures Valid()
      ensures url == parse(TriggerUrl(root, href))
      ensures url.None? ==> popups == old(popups) && labels == old(labels)
      ensures url.Some? ==> popups == Register(old(popups), url.value) && labels == Mark(old(labels), at, url.value.path)
    {
      var val := match SplitSecond(href) { case None => "undefined" case Some(v) => v };
      assert root + val == TriggerUrl(root, href);
      url := parse(root + val);
      if url.Some? {
        labels := Mark(labels, at, url.value.path);
        RegisterTrigger(url.value);
      }
    }

    /**
     * The registry step for one trigger: an existing entry's `selectors` array gains
     * the hash in place; an unknown path gets a new entry sharing that array.
     */
    method RegisterTrigger(link: Link)
      requires Valid()
      modifies this`popups
      ensures Valid()
      ensures popups == Register(old(popups), link)
    {
      ghost var prev := popups;
      var path, selector := link.path, link.hash;
      var selectors: seq<string> := [];
      if path in popups {
        selectors := popups[path].selectors;
      }
      if selector != "" {
        if selector !in selectors {
          selectors := selectors + [selector];
        }
      }
      if path !in popups {
        popups := popups[path := Entry(path, selectors, false, None, None, None)];
      } else {
        popups := popups[path := popups[path].(selectors := selectors)];
      }
      assert popups == Register(prev, link);
      RegisterKeepsValid(prev, link, dom.Keys, fetchLog);
    }


    /**
     * `at.insertAdjacentHTML('beforeend', markup)`: the parsed elements get the next
     * free ids and become the last children of `at`.
     */
    method InsertHtml(f: Markup, at: NodeId) returns (base: NodeId)
      requires Valid() && at in dom
      modifies this`dom, this`labels, this`nextId
      ensures Valid()
      ensures base == old(nextId) && nextId == base + |f.kids|
      ensures dom == Graft(old(dom), f, base, at) && labels == GraftLabels(old(labels), f, base, 0)
    {
      base := nextId;
      GraftWellFormed(dom, f, base, at);
      dom := Graft(dom, f, base, at);
      labels := GraftLabels(labels, f, base, 0);
      nextId := base + |f.kids|;
      RegistryGrows(popups, old(dom).Keys, dom.Keys);
    }

    /**
     * `buildPopup(id)`: an unknown id throws; a popup whose build started returns at
     * once; otherwise `init` is set before the fetch, the markup is put in a
     * `[data-wm-popup]` wrapper under `.wm-popup-content`, the slot is added to its
     * `.content-wrapper`, and the wrapper and slot are recorded. A failure after the
     * fetch is caught and leaves the container unset: before `init` there is no
     * `.wm-popup-content`, and a `null` fetch gives a wrapper with no `.content-wrapper`.
     */
    method BuildPopup(id: string, fetch: Network) returns (outcome: Outcome)
      requires Valid()
      modifies this`popups, this`fetchLog, this`dom, this`labels, this`nextId
      ensures Valid()
      ensures id !in old(popups) ==> outcome == Threw(UnknownPopup) && Unbuilt()
      ensures id in old(popups) ==> outcome == Done
      ensures id in old(popups) && old(popups[id].init) ==> Unbuilt()
      ensures id in old(popups) && !old(popups[id].init) ==> fetchLog == old(fetchLog) + [id]
      ensures id in old(popups) && !old(popups[id].init) ==>
        var started := old(popups)[id := old(popups)[id].(init := true)];
        && (popups == started || Mounted(started, popups, id, dom, labels))
        && (!containerBuilt ==> popups == started && dom == old(dom) && labels == old(labels))
        && (fetch(old(popups[id].path)).None? && Unmatched(old(labels), HolderSelector(id)) ==> popups == started)
      ensures popups.Keys == old(popups).Keys
      ensures forall p :: p in popups && p != id ==> popups[p] == old(popups[p])
      ensures id in popups ==>
        popups[id].init && popups[id].selectors == old(popups[id].selectors) && popups[id].record == old(popups[id].record)
      ensures old(dom).Keys <= dom.Keys
    {
      if id !in popups {
        return Threw(UnknownPopup);
      }
      if popups[id].init {
        return Done;
      }
      Build(id, fetch);
      outcome := Done;
    }

    /** `buildPopup(id)` past the `init` guard: set `init`, fetch, then wrap and mount the markup. */
    method Build(id: string, fetch: Network)
      requires Valid() && id in popups && !popups[id].init
      modifies this`popups, this`fetchLog, this`dom, this`labels, this`nextId
      ensures Valid()
      ensures fetchLog == old(fetchLog) + [id] && old(dom).Keys <= dom.Keys
      ensures var started := old(popups)[id := old(popups)[id].(init := true)];
        && (popups == started || Mounted(started, popups, id, dom, labels))
        && (!containerBuilt ==> popups == started && dom == old(dom) && labels == old(labels))
        && (fetch(old(popups[id].path)).None? && Unmatched(old(labels), HolderSelector(id)) ==> popups == started)
    {
      MarkBuilt(fetchLog, popups, id, dom.Keys);
      popups := popups[id := popups[id].(init := true)];
      fetchLog := fetchLog + [id];
      var content := fetch(popups[id].path);
      if !containerBuilt {
        return;
      }
      ghost var mounted: bool;
      mounted := Mount(id, if content.Some? then content.value else NoMarkup);
    }

    /**
     * The part of `buildPopup` after the fetch: wrap the markup, add the slot, record
     * the wrapper and the slot. A lookup that finds nothing ends it (the error is caught).
     */
    method Mount(id: string, content: Markup) returns (ghost mounted: bool)
      requires Valid() && id in popups
      modifies this`popups, this`dom, this`labels, this`nextId
      ensures Valid()
      ensures mounted ==> Mounted(old(popups), popups, id, dom, labels)
      ensures !mounted ==> popups == old(popups)
      ensures content == NoMarkup && Unmatched(old(labels), HolderSelector(id)) ==> !mounted
      ensures old(dom).Keys <= dom.Keys
    {
      var _ := Wrap(id, content);
      var container := QuerySelector(dom, labels, Content, HolderSelector(id));
      if container.None? {
        return false;
      }
      ChildIsNode(dom, container.value);
      mounted := Settle(id, container.value);
    }

    /** The build from the found wrapper `c` on: add the slot and record both. */
    method Settle(id: string, c: NodeId) returns (ghost mounted: bool)
      requires Valid() && id in popups && c in dom && HolderSelector(id) in LabelsOf(labels, c)
      modifies this`popups, this`dom, this`labels, this`nextId
      ensures Valid()
      ensures mounted <==> QuerySelector(old(dom), old(labels), c, ".content-wrapper").Some?
      ensures mounted ==> Mounted(old(popups), popups, id, dom, labels)
      ensures !mounted ==> popups == old(popups)
      ensures old(dom).Keys <= dom.Keys
    {
      ghost var next := nextId;
      mounted := QuerySelector(dom, labels, c, ".content-wrapper").Some?;
      AddSlot(id, c);
      if mounted {
        assert c != next;
      }
    }

    /** `insertAdjacentHTML('beforeend', `<div data-wm-popup="${id}">${content}</div>`)` on `.wm-popup-content`. */
    method Wrap(id: string, content: Markup) returns (holder: NodeId)
      requires Valid()
      modifies this`dom, this`labels, this`nextId
      ensures Valid()
      ensures holder == old(nextId) && nextId == holder + 1 + |content.kids| && old(dom).Keys <= dom.Keys
      ensures holder in dom && dom[Content] == old(dom)[Content] + [holder]
      ensures HolderSelector(id) in LabelsOf(labels, holder)
      ensures content == NoMarkup && Unmatched(old(labels), HolderSelector(id)) ==>
        var c := QuerySelector(dom, labels, Content, HolderSelector(id));
        c.Some? ==> QuerySelector(dom, labels, c.value, ".content-wrapper").None?
    {
      ElementGraft(dom, labels, {HolderSelector(id)}, nextId, Content);
      EmptyHolderHasNoWrapper(dom, labels, content, id, nextId);
      holder := InsertHtml(Holder(id), Content);
      GraftLabelsBelow(labels, content, holder + 1, 0, holder);
      var _ := InsertHtml(content, holder);
    }

    /**
     * `contentWrapper.insertAdjacentHTML(...)`, then `popup.container = container` and
     * `popup.singleBlockContainer = container.querySelector('.single-block-container')`.
     * Without a `.content-wrapper` the first step throws and nothing changes.
     */
    method AddSlot(id: string, container: NodeId)
      requires Valid() && id in popups && container in dom
      modifies this`popups, this`dom, this`labels, this`nextId
      ensures Valid()
      ensures var w := QuerySelector(old(dom), old(labels), container, ".content-wrapper");
        && (w.None? ==> popups == old(popups) && dom == old(dom) && labels == old(labels) && nextId == old(nextId))
        && (w.Some? ==>
              && w.value in old(dom) && nextId == old(nextId) + 1
              && dom == old(dom)[w.value := old(dom)[w.value] + [old(nextId)]][old(nextId) := []]
              && labels == old(labels)[old(nextId) := {".single-block-container"}]
              && popups == old(popups)[id := old(popups)[id].(container := Some(container),
                   slot := QuerySelector(dom, labels, container, ".single-block-container"))])
    {
      var wrapper := QuerySelector(dom, labels, container, ".content-wrapper");
      if wrapper.None? {
        return;
      }
      ChildIsNode(dom, wrapper.value);
      AttachSlot(id, container, wrapper.value);
    }

    /** Append the slot markup to the `.content-wrapper`, then record the wrapper and the slot. */
    method AttachSlot(id: string, container: NodeId, wrapper: NodeId)
      requires Valid() && id in popups && container in dom && wrapper in dom
      modifies this`popups, this`dom, this`labels, this`nextId
      ensures Valid()
      ensures nextId == old(nextId) + 1
      ensures dom == old(dom)[wrapper := old(dom)[wrapper] + [old(nextId)]][old(nextId) := []]
      ensures labels == old(labels)[old(nextId) := {".single-block-container"}]
      ensures popups == old(popups)[id := old(popups)[id].(container := Some(container),
        slot := QuerySelector(dom, labels, container, ".single-block-container"))]
    {
      var _ := AppendSlot(wrapper);
      RecordBuild(id, container);
    }

    /** `insertAdjacentHTML('beforeend', '<div class="single-block-container"></div>')` on the wrapper. */
    method AppendSlot(wrapper: NodeId) returns (slot: NodeId)
      requires Valid() && wrapper in dom
      modifies this`dom, this`labels, this`nextId
      ensures Valid()
      ensures slot == old(nextId) && slot !in old(dom) && nextId == slot + 1
      ensures dom == old(dom)[wrapper := old(dom)[wrapper] + [slot]][slot := []]
      ensures labels == old(labels)[slot := {".single-block-container"}]
    {
      ElementGraft(dom, labels, {".single-block-container"}, nextId, wrapper);
      slot := InsertHtml(SlotMarkup, wrapper);
    }

    /** `popup.container = container` and `popup.singleBlockContainer = container.querySelector(...)`. */
    method RecordBuild(id: string, container: NodeId)
      requires Valid() && id in popups && container in dom
      modifies this`popups
      ensures Valid()
      ensures popups == old(popups)[id := old(popups)[id].(container := Some(container),
        slot := QuerySelector(dom, labels, container, ".single-block-container"))]
    {
      var slot := QuerySelector(dom, labels, container, ".single-block-container");
      if slot.Some? {
        ChildIsNode(dom, slot.value);
      }
      SetNodes(popups, id, Some(container), slot, dom.Keys, fetchLog);
      popups := popups[id := popups[id].(container := Some(container), slot := slot)];
    }

    /**
     * `buildAllPopups()`: build every registered popup, then `checkForSquarespaceScripts`
     * and `loadScripts`. The test guarding the push is always true (two of its operands
     * are `NodeList`s, which are truthy), so the result of the loader query
     * (`squarespace`, `None` for `null`) is always queued; a queued `null` makes
     * `loadScripts` throw, and the error is caught.
     */
    method BuildAll(fetch: Network, squarespace: Option<ScriptEl>) returns (effects: seq<Exec>)
      requires Valid()
      modifies this`popups, this`fetchLog, this`dom, this`labels, this`nextId, this`scriptsToLoad
      ensures Valid()
      ensures popups.Keys == old(popups).Keys && forall p :: p in popups ==> popups[p].init
      ensures forall x :: x in fetchLog <==> x in old(fetchLog) || x in old(popups)
      ensures BuildsOnly(old(popups), popups)
      ensures scriptsToLoad == old(scriptsToLoad) + [squarespace]
      ensures effects == Plan(scriptsToLoad, [])
      ensures initialized == old(initialized) && options == old(options)
    {
      var ids := popups.Keys;
      while ids != {}
        invariant Valid()
        invariant ids <= popups.Keys == old(popups).Keys
        invariant forall p :: p in popups && p !in ids ==> popups[p].init
        invariant forall x :: x in fetchLog ==> x in old(fetchLog) || x in old(popups)
        invariant forall x :: x in old(fetchLog) ==> x in fetchLog
        invariant BuildsOnly(old(popups), popups)
        invariant scriptsToLoad == old(scriptsToLoad)
        decreases ids
      {
        var id :| id in ids;
        BuildEntry(id, fetch);
        ids := ids - {id};
      }
      scriptsToLoad := scriptsToLoad + [squarespace];
      var finished;
      effects, finished := LoadScripts(scriptsToLoad);
    }

    /** One turn of the loop in `buildAllPopups`: `buildPopup(id)` for a registered `id`. */
    method BuildEntry(id: string, fetch: Network)
      requires Valid() && id in popups
      modifies this`popups, this`fetchLog, this`dom, this`labels, this`nextId
      ensures Valid() && BuildsOnly(old(popups), popups) && popups[id].init
      ensures forall x :: x in fetchLog <==> x in old(fetchLog) || x == id
    {
      var _ := BuildPopup(id, fetch);
    }

    /**
     * `init()`: merge the options and register the triggers on every call; only the
     * first call builds the shared container and, when `preload` is set, every popup.
     */
    method Init(root: string, hrefs: seq<string>, at: seq<Option<NodeId>>, parse: string -> Option<Link>, fetch: Network,
                squarespace: Option<ScriptEl>)
      returns (outcome: Outcome, effects: seq<Exec>)
      requires Valid() && |at| == |hrefs|
      modifies this`options, this`initialized, this`containerBuilt, this`popups, this`fetchLog, this`dom, this`labels, this`nextId, this`scriptsToLoad
      ensures Valid()
      ensures options == MergeAll(defaults, [userParams])
      ensures outcome.Done? <==> |Accepted(root, hrefs, parse)| == |hrefs|
      ensures outcome.Done? ==> initialized
      ensures BuildsOnly(RegisterAll(old(popups), Accepted(root, hrefs, parse)), popups)
      ensures old(initialized) || outcome.Threw? ==>
        effects == [] && fetchLog == old(fetchLog) && dom == old(dom) && initialized == old(initialized)
        && labels == MarkAll(old(labels), at, Accepted(root, hrefs, parse))
      ensures old(initialized) || outcome.Threw? || !Truthy(Member(options, "preload")) ==>
        popups == RegisterAll(old(popups), Accepted(root, hrefs, parse))
      ensures !Truthy(Member(options, "preload")) ==> effects == [] && fetchLog == old(fetchLog)
      ensures !old(initialized) && outcome.Done? && Truthy(Member(options, "preload")) ==>
        (forall p :: p in popups ==> popups[p].init) && effects == Plan(scriptsToLoad, [])
    {
      MergeOptions();
      outcome, effects := Relink(root, hrefs, at, parse, fetch, squarespace);
    }

    /** The rest of `init` after the merge: `setLinks()`, then the once-guard around the build. */
    method Relink(root: string, hrefs: seq<string>, at: seq<Option<NodeId>>, parse: string -> Option<Link>, fetch: Network,
                  squarespace: Option<ScriptEl>)
      returns (outcome: Outcome, effects: seq<Exec>)
      requires Valid() && |at| == |hrefs|
      modifies this`initialized, this`containerBuilt, this`popups, this`fetchLog, this`dom, this`labels, this`nextId, this`scriptsToLoad
      ensures Valid()
      ensures outcome.Done? <==> |Accepted(root, hrefs, parse)| == |hrefs|
      ensures outcome.Done? ==> initialized
      ensures BuildsOnly(RegisterAll(old(popups), Accepted(root, hrefs, parse)), popups)
      ensures old(initialized) || outcome.Threw? ==>
        effects == [] && fetchLog == old(fetchLog) && dom == old(dom) && initialized == old(initialized)
        && labels == MarkAll(old(labels), at, Accepted(root, hrefs, parse))
      ensures old(initialized) || outcome.Threw? || !Truthy(Member(options, "preload")) ==>
        popups == RegisterAll(old(popups), Accepted(root, hrefs, parse))
      ensures !Truthy(Member(options, "preload")) ==> effects == [] && fetchLog == old(fetchLog)
      ensures !old(initialized) && outcome.Done? && Truthy(Member(options, "preload")) ==>
        (forall p :: p in popups ==> popups[p].init) && effects == Plan(scriptsToLoad, [])
    {
      effects := [];
      outcome := SetLinks(root, hrefs, at, parse);
      if outcome.Threw? {
        return;
      }
      if initialized {
        return;
      }
      ghost var registered := popups;
      assert registered == RegisterAll(old(popups), Accepted(root, hrefs, parse));
      effects := Start(fetch, squarespace);
    }

    /** `options = deepMerge(defaults, userParams)` */
    method MergeOptions()
      requires Valid()
      modifies this`options
      ensures Valid()
      ensures options == MergeAll(defaults, [userParams])
    {
      var merged := DeepMerge([defaults, userParams]);
      assert [defaults, userParams][1..] == [userParams];
      options := merged.value;
    }

    /** The part of `init` that runs once: `buildContainer()`, then `buildAllPopups()` if `preload`. */
    method Start(fetch: Network, squarespace: Option<ScriptEl>) returns (effects: seq<Exec>)
      requires Valid() && !initialized
      modifies this`initialized, this`containerBuilt, this`popups, this`fetchLog, this`dom, this`labels, this`nextId, this`scriptsToLoad
      ensures Valid()
      ensures initialized && options == old(options) && BuildsOnly(old(popups), popups)
      ensures !Truthy(Member(options, "preload")) ==> effects == [] && fetchLog == old(fetchLog) && popups == old(popups)
      ensures Truthy(Member(options, "preload")) ==>
        (forall p :: p in popups ==> popups[p].init) && effects == Plan(scriptsToLoad, [])
    {
      initialized := true;
      containerBuilt := true;
      effects := [];
      if Truthy(Member(options, "preload")) {
        effects := BuildAll(fetch, squarespace);
      }
    }

    /**
     * `open(id, target)`: build the popup first when it is unknown or not built yet
     * (an unknown id throws there), then wait for the site bundle (`bundleLoads` is
     * whether it loads), then show it. A built popup is never fetched again. `built` is
     * the page as the build leaves it, the page the target is taken from, and `marks`
     * the selectors its nodes match then.
     */
    method Open(id: string, target: string, fetch: Network, bundleLoads: bool) returns (outcome: Outcome, ghost built: Tree, ghost marks: Labels)
      requires Valid()
      modifies this`popups, this`fetchLog, this`dom, this`labels, this`nextId
      modifies this`isOpen, this`activeId, this`activeContainer, this`host, this`sharedOpen
      ensures Valid()
      ensures popups.Keys == old(popups).Keys && initialized == old(initialized)
      ensures id !in old(popups) ==> outcome == Threw(UnknownPopup) && Unbuilt() && Closed()
      ensures id in old(popups) ==> popups[id].init
      ensures id in old(popups) && old(popups[id].init) ==> fetchLog == old(fetchLog) && nextId == old(nextId)
      ensures id in old(popups) && !old(popups[id].init) ==> fetchLog == old(fetchLog) + [id]
      ensures id in old(popups) && !old(popups[id].init) && !bundleLoads ==>
        outcome == Threw(BundleLoadFailed) && Closed()
      ensures outcome.Done? ==> Shown(id)
      ensures id in old(popups) && old(popups[id].init) ==> built == old(dom) && marks == old(labels)
      ensures id in old(popups) && old(popups[id].init) && target == "" ==> popups == old(popups) && dom == old(dom)
      ensures outcome.Done? && target == "" ==> dom == built
      ensures outcome.Done? && target != "" ==> Relocated(built, dom, popups[id])
      ensures outcome.Done? ==> labels == OpenedLabels(marks, popups[id].container.value, target != "")
      ensures outcome.Threw? && (containerBuilt || target == "") ==> labels == marks
      ensures outcome.Threw? && containerBuilt ==> dom == built
      ensures id in old(popups) && (old(popups[id].init) || bundleLoads) && target != "" && popups[id].container.Some? ==>
        var found := QuerySelector(built, marks, popups[id].container.value, target);
        && (found.None? <==> outcome == Threw(TargetMissing))
        && (found.Some? ==> Recorded(built, popups[id].record, found.value))
      ensures forall p :: p in popups && p != id ==> popups[p] == old(popups[p])
      ensures id in old(popups) ==> popups[id].path == old(popups[id].path) && popups[id].selectors == old(popups[id].selectors)
    {
      outcome := EnsureBuilt(id, fetch, bundleLoads);
      built, marks := dom, labels;
      if outcome.Threw? {
        return;
      }
      outcome := Show(id, target);
    }

    /** Lines 279-283 of `open`: an unknown or unbuilt popup is built, then the site bundle is awaited. */
    method EnsureBuilt(id: string, fetch: Network, bundleLoads: bool) returns (outcome: Outcome)
      requires Valid()
      modifies this`popups, this`fetchLog, this`dom, this`labels, this`nextId
      ensures Valid()
      ensures unchanged(this`isOpen, this`activeId, this`activeContainer, this`host, this`sharedOpen, this`containerBuilt, this`initialized)
      ensures popups.Keys == old(popups).Keys
      ensures id !in old(popups) ==> outcome == Threw(UnknownPopup) && Unbuilt()
      ensures id in old(popups) ==> popups[id].init
      ensures id in old(popups) && old(popups[id].init) ==> outcome == Done && Unbuilt()
      ensures id in old(popups) && !old(popups[id].init) ==>
        && fetchLog == old(fetchLog) + [id]
        && (bundleLoads ==> outcome == Done)
        && (!bundleLoads ==> outcome == Threw(BundleLoadFailed))
      ensures id in old(popups) && !old(popups[id].init) ==>
        var started := old(popups)[id := old(popups)[id].(init := true)];
        && (popups == started || Mounted(started, popups, id, dom, labels))
        && (!containerBuilt ==> popups == started && dom == old(dom) && labels == old(labels))
      ensures BuildsOnly(old(popups), popups)
      ensures forall p :: p in popups && p != id ==> popups[p] == old(popups[p])
    {
      if id !in popups || !popups[id].init {
        outcome := BuildPopup(id, fetch);
        if outcome.Threw? {
          return;
        }
        if !bundleLoads {
          return Threw(BundleLoadFailed);
        }
      }
      outcome := Done;
    }

    /** The open/close state and the page are as they were. */
    twostate predicate Closed()
      reads this
    {
      isOpen == old(isOpen) && activeId == old(activeId) && activeContainer == old(activeContainer)
      && host == old(host) && sharedOpen == old(sharedOpen)
    }

    /** Popup `id` is the open one, and it and the shared container carry `open`. */
    ghost predicate Shown(id: string)
      reads this
    {
      && isOpen && activeId == Some(id) && id in popups && activeContainer == popups[id].container
      && activeContainer.Some? && ".open" in LabelsOf(labels, activeContainer.value)
      && containerBuilt && host == SiteWrapper && sharedOpen
    }


    /** The part of `open` after the build: make `id` the active popup, then present it. */
    method Show(id: string, target: string) returns (outcome: Outcome)
      requires Valid() && id in popups
      modifies this`popups, this`dom, this`labels
      modifies this`isOpen, this`activeId, this`activeContainer, this`host, this`sharedOpen
      ensures Valid()
      ensures unchanged(this`fetchLog, this`nextId, this`containerBuilt, this`initialized)
      ensures isOpen && activeId == Some(id) && activeContainer == old(popups[id].container)
      ensures OnlyRecordOf(old(popups), popups, id)
      ensures target == "" ==> popups == old(popups) && dom == old(dom)
      ensures target != "" && outcome.Done? ==> Relocated(old(dom), dom, popups[id])
      ensures target != "" && old(popups[id].container).Some? ==>
        var found := QuerySelector(old(dom), old(labels), old(popups[id].container).value, target);
        && (found.None? <==> outcome == Threw(TargetMissing))
        && (found.Some? ==> Recorded(old(dom), popups[id].record, found.value))
      ensures outcome.Threw? && containerBuilt ==> dom == old(dom)
      ensures outcome.Done? ==> Shown(id) && labels == OpenedLabels(old(labels), activeContainer.value, target != "")
      ensures outcome.Threw? && (containerBuilt || target == "") ==> labels == old(labels)
    {
      isOpen, activeId, activeContainer := true, Some(id), popups[id].container;
      outcome := Present(id, target);
    }

    /**
     * `open` from line 287 on, for the active popup `id`: move the target into the
     * slot when there is one (`MoveTarget` states how that step can fail), then show
     * the shared container and the wrapper.
     */
    method Present(id: string, target: string) returns (outcome: Outcome)
      requires Valid() && id in popups && activeContainer == popups[id].container
      modifies this`popups, this`dom, this`labels, this`host, this`sharedOpen
      ensures Valid()
      ensures OnlyRecordOf(old(popups), popups, id)
      ensures target == "" ==> popups == old(popups) && dom == old(dom)
      ensures target != "" && activeContainer.None? ==>
        outcome == Threw(MissingContainer) && popups == old(popups) && dom == old(dom)
      ensures target != "" && outcome.Done? ==> Relocated(old(dom), dom, popups[id])
      ensures target != "" && activeContainer.Some? ==>
        var found := QuerySelector(old(dom), old(labels), activeContainer.value, target);
        && (found.None? <==> outcome == Threw(TargetMissing))
        && (found.Some? ==> Recorded(old(dom), popups[id].record, found.value))
      ensures outcome.Threw? && containerBuilt ==> dom == old(dom)
      ensures !containerBuilt ==> outcome.Threw?
      ensures outcome.Done? ==>
        && activeContainer.Some? && labels == OpenedLabels(old(labels), activeContainer.value, target != "")
        && containerBuilt && host == SiteWrapper && sharedOpen
      ensures outcome.Threw? && (containerBuilt || target == "") ==> labels == old(labels)
    {
      if target != "" {
        outcome := MoveTarget(id, target);
        if outcome.Threw? {
          return;
        }
        assert activeContainer.Some?;
      }
      outcome := Display();
    }

    /**
     * `if (target) { ... }` in `open`: the active wrapper must exist to be searched;
     * `Relocate` states which target is taken and when the move fails.
     */
    method MoveTarget(id: string, target: string) returns (outcome: Outcome)
      requires Valid() && id in popups && activeContainer == popups[id].container
      modifies this`popups, this`dom, this`labels
      ensures Valid()
      ensures OnlyRecordOf(old(popups), popups, id)
      ensures activeContainer.None? ==> outcome == Threw(MissingContainer) && popups == old(popups) && dom == old(dom)
      ensures activeContainer.Some? ==>
        var found := QuerySelector(old(dom), old(labels), activeContainer.value, target);
        && (found.None? <==> outcome == Threw(TargetMissing))
        && (found.Some? ==> Recorded(old(dom), popups[id].record, found.value))
      ensures outcome.Done? ==>
        && activeContainer.Some? && Relocated(old(dom), dom, popups[id])
        && labels == AddClass(old(labels), activeContainer.value, ".single-block-only")
      ensures outcome.Threw? ==> dom == old(dom) && labels == old(labels)
    {
      if activeContainer.None? {
        return Threw(MissingContainer);
      }
      outcome := Relocate(id, activeContainer.value, target);
    }

    /**
     * The end of `open`: move the shared container under `#siteWrapper` and mark it and
     * the active wrapper `open`. Without the shared container (`init` never ran) the
     * first `classList` access throws; so does the second without an active wrapper.
     */
    method Display() returns (outcome: Outcome)
      modifies this`labels, this`host, this`sharedOpen
      ensures unchanged(this`dom, this`popups, this`activeContainer, this`containerBuilt)
      ensures !containerBuilt ==>
        outcome == Threw(NoSharedContainer) && labels == old(labels) && host == old(host) && sharedOpen == old(sharedOpen)
      ensures containerBuilt ==> host == SiteWrapper && sharedOpen
      ensures containerBuilt && activeContainer.None? ==> outcome == Threw(MissingContainer) && labels == old(labels)
      ensures containerBuilt && activeContainer.Some? ==>
        outcome == Done && labels == AddClass(old(labels), activeContainer.value, ".open")
    {
      if !containerBuilt {
        return Threw(NoSharedContainer);
      }
      host := SiteWrapper;
      sharedOpen := true;
      if activeContainer.None? {
        return Threw(MissingContainer);
      }
      labels := AddClass(labels, activeContainer.value, ".open");
      outcome := Done;
    }

    /**
     * The target branch of `open`: the target must match under the popup's wrapper
     * (`targetEl.parentNode` throws on `null` otherwise), then it is moved.
     */
    method Relocate(id: string, container: NodeId, target: string) returns (outcome: Outcome)
      requires Valid() && id in popups && popups[id].container == Some(container)
      modifies this`popups, this`dom, this`labels
      ensures Valid()
      ensures OnlyRecordOf(old(popups), popups, id)
      ensures var found := QuerySelector(old(dom), old(labels), container, target);
        && (found.None? <==> outcome == Threw(TargetMissing))
        && (found.None? ==> popups == old(popups) && dom == old(dom) && labels == old(labels))
        && (found.Some? ==> Recorded(old(dom), popups[id].record, found.value))
        && (found.Some? ==> (outcome.Done? <==> CanMove(old(dom), old(popups[id]), found.value)))
      ensures outcome.Done? ==> Relocated(old(dom), dom, popups[id]) && labels == AddClass(old(labels), container, ".single-block-only")
      ensures outcome.Threw? ==> dom == old(dom) && labels == old(labels)
    {
      var found := QuerySelector(dom, labels, container, target);
      if found.None? {
        return Threw(TargetMissing);
      }
      outcome := MoveInto(id, container, found.value);
    }

    /**
     * Record `n`'s parent and next sibling, append `n` to the popup's slot (a missing
     * slot throws, and so does a slot inside `n`), mark the wrapper `single-block-only`.
     */
    method MoveInto(id: string, container: NodeId, n: NodeId) returns (outcome: Outcome)
      requires Valid() && id in popups && popups[id].container == Some(container) && HasParent(dom, n)
      modifies this`popups, this`dom, this`labels
      ensures Valid()
      ensures OnlyRecordOf(old(popups), popups, id)
      ensures Recorded(old(dom), popups[id].record, n)
      ensures outcome.Done? <==> CanMove(old(dom), old(popups[id]), n)
      ensures outcome.Done? ==> Relocated(old(dom), dom, popups[id]) && labels == AddClass(old(labels), container, ".single-block-only")
      ensures outcome.Threw? ==> dom == old(dom) && labels == old(labels)
      ensures outcome.Threw? ==> outcome.fault == MissingSlot || outcome.fault == HierarchyRequest
    {
      var parent :| parent in dom && n in dom[parent];
      var record := Relocation(n, parent, NextSibling(dom[parent], n));
      ChildIsNode(dom, n);
      SetRecord(popups, id, record, dom.Keys, fetchLog);
      popups := popups[id := popups[id].(record := Some(record))];
      var slot := popups[id].slot;
      if slot.None? {
        return Threw(MissingSlot);
      }
      if IsInclusiveAncestor(dom, n, slot.value) {
        return Threw(HierarchyRequest);
      }
      AppendTarget(container, parent, slot.value, n);
      outcome := Done;
    }

    /** `singleBlockContainer.append(targetEl)`, then `activeContainer.classList.add('single-block-only')`. */
    method AppendTarget(container: NodeId, parent: NodeId, slot: NodeId, n: NodeId)
      requires Valid() && parent in dom && n in dom[parent] && slot in dom
      modifies this`dom, this`labels
      ensures Valid()
      ensures dom == MoveChild(old(dom), parent, slot, n)
      ensures labels == AddClass(old(labels), container, ".single-block-only")
    {
      MoveChildWellFormed(dom, parent, slot, n);
      dom := MoveChild(dom, parent, slot, n);
      labels := AddClass(labels, container, ".single-block-only");
    }

    /** `returnElement(key)` */
    method ReturnElement(key: string) returns (outcome: Outcome)
      requires Valid()
      modifies this`dom
      ensures Valid()
      ensures Returned(old(dom), popups, key).Failed? ==>
        outcome == Threw(Returned(old(dom), popups, key).fault) && dom == old(dom)
      ensures Returned(old(dom), popups, key).Moved? ==> outcome == Done && dom == Returned(old(dom), popups, key).tree
    {
      var step := Returned(dom, popups, key);
      if step.Failed? {
        return Threw(step.fault);
      }
      ReturnedWellFormed(dom, popups, key);
      RegistryGrows(popups, dom.Keys, step.tree.Keys);
      dom := step.tree;
      outcome := Done;
    }

    /**
     * `close()`: clear `isOpen`; take `open` off the shared container and the active
     * wrapper and put the container back under the popup parent; if the wrapper is
     * `single-block-only`, return the moved node and clear the flag; clear `activeId`.
     * It throws when the shared container or the active wrapper does not exist.
     */
    method Close() returns (outcome: Outcome)
      requires Valid()
      modifies this`dom, this`labels, this`isOpen, this`activeId, this`host, this`sharedOpen
      ensures Valid() && !isOpen
      ensures !containerBuilt ==>
        && outcome == Threw(NoSharedContainer) && dom == old(dom) && activeId == old(activeId)
        && labels == old(labels) && host == old(host) && sharedOpen == old(sharedOpen)
      ensures containerBuilt && activeContainer.None? ==>
        && outcome == Threw(NoActiveContainer) && dom == old(dom) && activeId == old(activeId)
        && labels == old(labels) && host == old(host) && !sharedOpen
      ensures containerBuilt && activeContainer.Some? ==> !sharedOpen && host == PopupParent
      ensures containerBuilt && activeContainer.Some? && ".single-block-only" !in LabelsOf(old(labels), activeContainer.value) ==>
        outcome == Done && dom == old(dom) && activeId.None? && labels == RemoveClass(old(labels), activeContainer.value, ".open")
      ensures containerBuilt && activeContainer.Some? && ".single-block-only" in LabelsOf(old(labels), activeContainer.value) ==>
        var step := Returned(old(dom), popups, ActiveKey(old(activeId)));
        var unopened := RemoveClass(old(labels), activeContainer.value, ".open");
        && (step.Failed? ==> outcome == Threw(step.fault) && dom == old(dom) && activeId == old(activeId) && labels == unopened)
        && (step.Moved? ==> (outcome == Done && dom == step.tree && activeId.None?
              && labels == RemoveClass(unopened, activeContainer.value, ".single-block-only")))
    {
      isOpen := false;
      if !containerBuilt {
        return Threw(NoSharedContainer);
      }
      sharedOpen := false;
      if activeContainer.None? {
        return Threw(NoActiveContainer);
      }
      var wrapper := activeContainer.value;
      labels := RemoveClass(labels, wrapper, ".open");
      host := PopupParent;
      ghost var page, marks := dom, labels;
      assert page == old(dom) && activeId == old(activeId);
      assert ".single-block-only" in LabelsOf(marks, wrapper) <==> ".single-block-only" in LabelsOf(old(labels), wrapper);
      outcome := Unpin(wrapper);
    }

    /**
     * The end of `close`: a `single-block-only` wrapper gets its moved node back and
     * loses the flag; then `activeId` is cleared. A failed return throws past both.
     */
    method Unpin(wrapper: NodeId) returns (outcome: Outcome)
      requires Valid()
      modifies this`dom, this`labels, this`activeId
      ensures Valid()
      ensures unchanged(this`popups, this`host, this`sharedOpen, this`containerBuilt, this`activeContainer)
      ensures ".single-block-only" !in LabelsOf(old(labels), wrapper) ==>
        outcome == Done && dom == old(dom) && labels == old(labels) && activeId.None?
      ensures ".single-block-only" in LabelsOf(old(labels), wrapper) ==>
        var step := Returned(old(dom), popups, ActiveKey(old(activeId)));
        && (step.Failed? ==>
              outcome == Threw(step.fault) && dom == old(dom) && labels == old(labels) && activeId == old(activeId))
        && (step.Moved? ==>
              && outcome == Done && dom == step.tree && activeId.None?
              && labels == RemoveClass(old(labels), wrapper, ".single-block-only"))
    {
      if ".single-block-only" in LabelsOf(labels, wrapper) {
        outcome := Restore(wrapper);
        return;
      }
      activeId := None;
      outcome := Done;
    }

    /** `returnElement(activeId)` and `classList.remove('single-block-only')`, then `activeId = null`. */
    method Restore(wrapper: NodeId) returns (outcome: Outcome)
      requires Valid()
      modifies this`dom, this`labels, this`activeId
      ensures Valid()
      ensures var step := Returned(old(dom), popups, ActiveKey(old(activeId)));
        && (step.Failed? ==>
              outcome == Threw(step.fault) && dom == old(dom) && labels == old(labels) && activeId == old(activeId))
        && (step.Moved? ==>
              && outcome == Done && dom == step.tree && activeId.None?
              && labels == RemoveClass(old(labels), wrapper, ".single-block-only"))
    {
      outcome := ReturnElement(ActiveKey(activeId));
      if outcome.Threw? {
        return;
      }
      Unflag(wrapper);
    }

    /** `activeContainer.classList.remove('single-block-only')`, then `activeId = null`. */
    method Unflag(wrapper: NodeId)
      requires Valid()
      modifies this`labels, this`activeId
      ensures Valid()
      ensures labels == RemoveClass(old(labels), wrapper, ".single-block-only") && activeId.None?
    {
      labels := RemoveClass(labels, wrapper, ".single-block-only");
      activeId := None;
    }

    /** `render()` */
    method Render(root: string, hrefs: seq<string>, at: seq<Option<NodeId>>, parse: string -> Option<Link>)
      returns (outcome: Outcome)
      requires Valid() && |at| == |hrefs|
      modifies this`popups, this`labels
      ensures Valid()
      ensures outcome.Done? <==> |Accepted(root, hrefs, parse)| == |hrefs|
      ensures popups == RegisterAll(old(popups), Accepted(root, hrefs, parse))
      ensures labels == MarkAll(old(labels), at, Accepted(root, hrefs, parse))
    {
      outcome := SetLinks(root, hrefs, at, parse);
    }
  }

  /** Grafting one empty element adds one childless node, with its labels, after the last child. */
  lemma ElementGraft(d: Tree, l: Labels, labs: set<string>, base: NodeId, at: NodeId)
    requires at in d && base !in d
    ensures Graft(d, Element(labs), base, at) == d[at := d[at] + [base]][base := []]
    ensures GraftLabels(l, Element(labs), base, 0) == l[base := labs]
  {
    assert Shift(Element(labs).roots, base) == [base];
    assert Shift(Element(labs).kids[0], base) == [];
  }

  /** The markup of a `null` fetch: no elements. */
  const NoMarkup: Markup := Forest([], [], [])

  /** Grafting markup without elements changes nothing. */
  lemma EmptyGraft(d: Tree, l: Labels, base: NodeId, at: NodeId)
    requires at in d
    ensures Graft(d, NoMarkup, base, at) == d && GraftLabels(l, NoMarkup, base, 0) == l
  {
    assert Shift(NoMarkup.roots, base) == [];
    assert d[at] + [] == d[at];
  }

  /**
   * When the fetch gave no elements and no node matched `[data-wm-popup="id"]` before,
   * the wrapper the build finds is its own new, empty one, which has no `.content-wrapper`.
   */
  lemma EmptyHolderHasNoWrapper(d: Tree, l: Labels, f: Markup, id: string, h: NodeId)
    requires Content in d && h !in d
    ensures var d1 := Graft(d, Holder(id), h, Content);
      var l2 := GraftLabels(GraftLabels(l, Holder(id), h, 0), f, h + 1, 0);
      var c := QuerySelector(Graft(d1, f, h + 1, h), l2, Content, HolderSelector(id));
      f == NoMarkup && Unmatched(l, HolderSelector(id)) && c.Some? ==>
        QuerySelector(Graft(d1, f, h + 1, h), l2, c.value, ".content-wrapper").None?
  {
    if f == NoMarkup && Unmatched(l, HolderSelector(id)) {
      ElementGraft(d, l, {HolderSelector(id)}, h, Content);
      var d1 := Graft(d, Holder(id), h, Content);
      EmptyGraft(d1, GraftLabels(l, Holder(id), h, 0), h + 1, h);
      OnlyHolderMatches(d1, l, id, h);
    }
  }

  /** When only the childless node `h` matches the wrapper selector, the wrapper found has no descendants. */
  lemma OnlyHolderMatches(t: Tree, l: Labels, id: string, h: NodeId)
    requires h in t && t[h] == [] && Unmatched(l, HolderSelector(id))
    ensures var l1 := l[h := {HolderSelector(id)}];
      var c := QuerySelector(t, l1, Content, HolderSelector(id));
      c.Some? ==> QuerySelector(t, l1, c.value, ".content-wrapper").None?
  {
  }

  /** Starting a build logs the fetch and sets `init`, keeping the log in step with the flags. */
  lemma MarkBuilt(log: seq<string>, popups: Popups, id: string, nodes: set<NodeId>)
    requires LogOk(log, popups) && RegistryOk(popups, nodes) && id in popups && !popups[id].init
    ensures var next := popups[id := popups[id].(init := true)];
      LogOk(log + [id], next) && RegistryOk(next, nodes)
  {
    assert Distinct(log + [id]) by {
      forall i, j | 0 <= i < j < |log + [id]| ensures (log + [id])[i] != (log + [id])[j] {
        if j == |log| {
          assert (log + [id])[i] == log[i];
        }
      }
    }
  }

  /** Recording a popup's wrapper and slot, both nodes of the page, keeps the registry consistent. */
  lemma SetNodes(popups: Popups, id: string, container: Option<NodeId>, slot: Option<NodeId>,
                 nodes: set<NodeId>, log: seq<string>)
    requires RegistryOk(popups, nodes) && LogOk(log, popups) && id in popups
    requires (container.Some? ==> container.value in nodes) && (slot.Some? ==> slot.value in nodes)
    ensures var next := popups[id := popups[id].(container := container, slot := slot)];
      RegistryOk(next, nodes) && LogOk(log, next)
  {
  }

  /** Recording a relocation of nodes of the page keeps the registry and the log consistent. */
  lemma SetRecord(popups: Popups, id: string, record: Relocation, nodes: set<NodeId>, log: seq<string>)
    requires RegistryOk(popups, nodes) && LogOk(log, popups) && id in popups
    requires record.movedEl in nodes && record.returnParent in nodes
    ensures var next := popups[id := popups[id].(record := Some(record))];
      RegistryOk(next, nodes) && LogOk(log, next)
  {
  }

  lemma RegistryGrows(popups: Popups, a: set<NodeId>, b: set<NodeId>)
    requires RegistryOk(popups, a) && a <= b
    ensures RegistryOk(popups, b)
  {
  }

  /** Registering a trigger keeps the registry and the fetch log consistent. */
  lemma RegisterKeepsValid(popups: Popups, link: Link, nodes: set<NodeId>, log: seq<string>)
    requires RegistryOk(popups, nodes) && LogOk(log, popups)
    ensures RegistryOk(Register(popups, link), nodes) && LogOk(log, Register(popups, link))
  {
    var r := Register(popups, link);
    var base := BaseSelectors(popups, link.path);
    assert Distinct(AddSelector(base, link.hash)) by {
      AddSelectorsSpec(base, [link.hash]);
      assert AddSelectors(base, [link.hash]) == AddSelector(base, link.hash);
    }
  }
}

=== FILE: popup_scenarios.dfy ===
/**
 * Sequences of public calls on one `wmPopup` instance, and what the page and the
 * open/close state look like at the end.
 */
module PopupScenarios {
  import opened Common
  import opened JsonMerge
  import opened Dom
  import opened Scripts
  import opened Registry
  import opened Popup

  /**
   * `open(id, target)` on a built popup, then `close()` twice. When the open succeeds,
   * the first close puts the target back where it was, among the same siblings in the
   * same order, and the second close succeeds without moving anything. The page is
   * taken to be free of cycles, which `WellFormed` alone does not say.
   */
  method OpenThenCloseTwice(c: Controller, id: string, target: string, fetch: Network, bundleLoads: bool)
    returns (shown: Outcome, first: Outcome, second: Outcome)
    requires c.Valid() && Acyclic(c.dom) && id in c.popups && c.popups[id].init && target != ""
    modifies c
    ensures c.Valid() && !c.isOpen
    ensures shown.Done? ==> first == Done && second == Done && c.dom == old(c.dom) && c.activeId.None?
  {
    ghost var page := c.dom;
    ghost var built: Tree, marks: Labels;
    shown, built, marks := c.Open(id, target, fetch, bundleLoads);
    if shown.Threw? {
      first := c.Close();
      second := c.Close();
      return;
    }
    var e := c.popups[id];
    ReturnUndoesRelocation(page, c.popups, id, e.record.value.movedEl, e.slot.value);
    assert ActiveKey(c.activeId) == id;
    first := CloseRestores(c, page);
    second := CloseAgain(c);
  }

  /**
   * The first `close()` after a successful `open` with a target: the active wrapper is
   * `single-block-only`, and returning the moved node gives back `page`.
   */
  method CloseRestores(c: Controller, ghost page: Tree) returns (closed: Outcome)
    requires c.Valid() && c.containerBuilt && c.activeContainer.Some?
    requires ".single-block-only" in LabelsOf(c.labels, c.activeContainer.value)
    requires Returned(c.dom, c.popups, ActiveKey(c.activeId)) == Moved(page)
    modifies c
    ensures c.Valid() && !c.isOpen && c.activeId.None?
    ensures closed == Done && c.dom == page
    ensures c.containerBuilt && c.activeContainer == old(c.activeContainer)
    ensures ".single-block-only" !in LabelsOf(c.labels, c.activeContainer.value)
  {
    closed := c.Close();
  }

  /** A `close()` when the active wrapper is no longer `single-block-only` moves nothing. */
  method CloseAgain(c: Controller) returns (closed: Outcome)
    requires c.Valid() && c.containerBuilt && c.activeContainer.Some?
    requires ".single-block-only" !in LabelsOf(c.labels, c.activeContainer.value)
    modifies c
    ensures c.Valid() && !c.isOpen && c.activeId.None?
    ensures closed == Done && c.dom == old(c.dom)
  {
    closed := c.Close();
  }

  /** `close()` right after the script loads: `elements.container` is still `null`. */
  method CloseBeforeInit(settings: Option<JVal>) returns (closed: Outcome)
    ensures closed == Threw(NoSharedContainer)
  {
    var c := new Controller(settings);
    closed := c.Close();
  }

  /**
   * `init()` then `close()` with nothing opened: `activeContainer` is undefined, so the
   * close throws instead of doing nothing; when `init` itself threw in `setLinks`, the
   * shared container was never built and the close throws one step earlier.
   */
  method CloseBeforeOpen(settings: Option<JVal>, root: string, hrefs: seq<string>, at: seq<Option<NodeId>>,
                         parse: string -> Option<Link>, fetch: Network, squarespace: Option<ScriptEl>)
    returns (started: Outcome, closed: Outcome)
    requires |at| == |hrefs|
    ensures started.Done? ==> closed == Threw(NoActiveContainer)
    ensures started.Threw? ==> closed == Threw(NoSharedContainer)
  {
    var c;
    c, started := LoadThenInit(settings, root, hrefs, at, parse, fetch, squarespace);
    closed := CloseNothingOpen(c);
  }

  /** The script loads, then `init()` runs: nothing is open yet. */
  method LoadThenInit(settings: Option<JVal>, root: string, hrefs: seq<string>, at: seq<Option<NodeId>>,
                      parse: string -> Option<Link>, fetch: Network, squarespace: Option<ScriptEl>)
    returns (c: Controller, started: Outcome)
    requires |at| == |hrefs|
    ensures fresh(c) && c.Valid() && c.activeContainer.None?
    ensures c.containerBuilt <==> started.Done?
  {
    c := new Controller(settings);
    var effects;
    started, effects := c.Init(root, hrefs, at, parse, fetch, squarespace);
  }

  /** `close()` with no active wrapper throws at the first `classList` it cannot reach. */
  method CloseNothingOpen(c: Controller) returns (closed: Outcome)
    requires c.Valid() && c.activeContainer.None?
    modifies c
    ensures old(c.containerBuilt) ==> closed == Threw(NoActiveContainer)
    ensures !old(c.containerBuilt) ==> closed == Threw(NoSharedContainer)
  {
    closed := c.Close();
  }

  /** Two `open(id)` calls fetch the popup's page at most once between them. */
  method OpenTwice(c: Controller, id: string, first: string, second: string, fetch: Network,
                   firstLoads: bool, secondLoads: bool)
    returns (a: Outcome, b: Outcome)
    requires c.Valid() && id in c.popups
    modifies c
    ensures c.Valid()
    ensures c.fetchLog == old(c.fetchLog) + (if old(c.popups[id].init) then [] else [id])
  {
    ghost var built: Tree, marks: Labels;
    a, built, marks := c.Open(id, first, fetch, firstLoads);
    b, built, marks := c.Open(id, second, fetch, secondLoads);
  }
}

=== FILE: registry.dfy ===
/**
 * The popup registry that `setLinks` fills: one entry per popup path, each with the
 * sub-region selectors its triggers asked for.
 */
module Registry {
  import opened Common
  import Dom

  /** Where a relocated node came from: `movedEl`, `returnParent`, `nextSibling`. */
  datatype Relocation = Relocation(movedEl: Dom.NodeId, returnParent: Dom.NodeId, nextSibling: Option<Dom.NodeId>)

  /**
   * One entry of `popups`. `init` is set once a build started; `container` and `slot`
   * (the `single-block-container`) are set when the build succeeded; `record` is the
   * last relocation made for this popup.
   */
  datatype Entry = Entry(
    path: string,
    selectors: seq<string>,
    init: bool,
    container: Option<Dom.NodeId>,
    slot: Option<Dom.NodeId>,
    record: Option<Relocation>)

  type Popups = map<string, Entry>

  /** A trigger's URL taken apart: `url.pathname` and `url.hash` (empty when absent). */
  datatype Link = Link(path: string, hash: string)

  // ---------------------------------------------------------------------------
  // `href.split('=')[1]`

  /** The text before the first `c` in `s`, or all of `s`. */
  function UpTo(s: string, c: char): (r: string)
    ensures c !in r && r <= s
    ensures |r| < |s| ==> s[|r|] == c
  {
    if s == [] || s[0] == c then [] else [s[0]] + UpTo(s[1..], c)
  }

  /**
   * `s.split('=')[1]`: the second `=`-separated field, `undefined` (`None`) when `s`
   * has no `=` at all.
   */
  function SplitSecond(s: string): (r: Option<string>)
    ensures r.None? <==> '=' !in s
    ensures r.Some? ==> '=' !in r.value
  {
    match IndexOf(s, '=')
    case None => None
    case Some(i) => Some(UpTo(s[i + 1..], '='))
  }

  lemma {:induction false} UpToStops(v: string, rest: string)
    requires '=' !in v
    ensures UpTo(v, '=') == v
    ensures rest != [] && rest[0] == '=' ==> UpTo(v + rest, '=') == v
  {
    if v != [] {
      assert (v + rest)[0] == v[0] && (v + rest)[1..] == v[1..] + rest;
      UpToStops(v[1..], rest);
    } else {
      assert v + rest == rest;
    }
  }

  /**
   * A trigger written `<prefix>=<value>` or `<prefix>=<value>=<more>` yields exactly
   * `value`, as long as neither `prefix` nor `value` contains `=`.
   */
  lemma SplitSecondField(prefix: string, v: string, more: Option<string>)
    requires '=' !in prefix && '=' !in v
    ensures var href := prefix + "=" + v + (if more.Some? then "=" + more.value else "");
      SplitSecond(href) == Some(v)
  {
    var tail := if more.Some? then "=" + more.value else "";
    var href := prefix + "=" + v + tail;
    assert href[|prefix|] == '=' && href[..|prefix|] == prefix;
    IndexOfFirst(href, |prefix|);
    assert href[|prefix| + 1..] == v + tail;
    UpToStops(v, tail);
    if tail == [] {
      assert v + tail == v;
    }
  }

  // ---------------------------------------------------------------------------
  // The registry step of `setLinks`

  /** `if (selector && !selectors.includes(selector)) selectors.push(selector)`. */
  function AddSelector(selectors: seq<string>, selector: string): (r: seq<string>)
    ensures selectors <= r && |r| <= |selectors| + 1
  {
    if selector != "" && selector !in selectors then selectors + [selector] else selectors
  }

  /** One push adds exactly a non-empty selector, and never a repeat. */
  lemma AddSelectorSpec(selectors: seq<string>, selector: string)
    ensures forall x :: x in AddSelector(selectors, selector) <==> x in selectors || (x == selector && selector != "")
    ensures Distinct(selectors) ==> Distinct(AddSelector(selectors, selector))
  {
  }

  /**
   * One trigger: an existing entry only gains the selector (in place, through the
   * shared `selectors` array); a new path gets a fresh entry.
   */
  function Register(popups: Popups, link: Link): (r: Popups)
    ensures r.Keys == popups.Keys + {link.path}
    ensures forall p :: p in popups && p != link.path ==> r[p] == popups[p]
    ensures SameBuildState(r[link.path], if link.path in popups then popups[link.path] else Entry(link.path, [], false, None, None, None))
    ensures r[link.path].selectors == AddSelector(BaseSelectors(popups, link.path), link.hash)
  {
    if link.path in popups then
      popups[link.path := popups[link.path].(selectors := AddSelector(popups[link.path].selectors, link.hash))]
    else
      popups[link.path := Entry(link.path, AddSelector([], link.hash), false, None, None, None)]
  }

  /** `setLinks` over a whole list of triggers, in document order. */
  function RegisterAll(popups: Popups, links: seq<Link>): (r: Popups)
    ensures popups.Keys <= r.Keys
    decreases |links|
  {
    if links == [] then popups else RegisterAll(Register(popups, links[0]), links[1..])
  }

  lemma {:induction false} RegisterAllSnoc(popups: Popups, links: seq<Link>, link: Link)
    ensures RegisterAll(popups, links + [link]) == Register(RegisterAll(popups, links), link)
    decreases |links|
  {
    if links != [] {
      assert (links + [link])[1..] == links[1..] + [link];
      RegisterAllSnoc(Register(popups, links[0]), links[1..], link);
    }
  }

  function Paths(links: seq<Link>): set<string> {
    set i | 0 <= i < |links| :: links[i].path
  }

  /** The hashes of the triggers for `path`, in document order. */
  function SelectorsFor(links: seq<Link>, path: string): (r: seq<string>)
    ensures |r| <= |links|
  {
    if links == [] then []
    else (if links[0].path == path then [links[0].hash] else []) + SelectorsFor(links[1..], path)
  }

  /** Adding a whole list of selectors, one at a time. */
  function AddSelectors(selectors: seq<string>, xs: seq<string>): (r: seq<string>)
    ensures selectors <= r
    decreases |xs|
  {
    if xs == [] then selectors else AddSelectors(AddSelector(selectors, xs[0]), xs[1..])
  }

  /** The entry for `path` before any trigger is processed, as far as selectors go. */
  function BaseSelectors(popups: Popups, path: string): seq<string> {
    if path in popups then popups[path].selectors else []
  }

  /** Everything of an entry but its selectors. */
  predicate SameBuildState(a: Entry, b: Entry) {
    a.path == b.path && a.init == b.init && a.container == b.container &&
    a.slot == b.slot && a.record == b.record
  }

  lemma PathsCons(links: seq<Link>)
    requires links != []
    ensures Paths(links) == {links[0].path} + Paths(links[1..])
  {
    forall x | x in Paths(links) ensures x in {links[0].path} + Paths(links[1..]) {
      var i :| 0 <= i < |links| && links[i].path == x;
      if i > 0 {
        assert links[1..][i - 1].path == x;
      }
    }
    forall x | x in Paths(links[1..]) ensures x in Paths(links) {
      var i :| 0 <= i < |links[1..]| && links[1..][i].path == x;
      assert links[i + 1].path == x;
    }
  }

  /** `setLinks` keeps one entry per path ever seen, and no more. */
  lemma {:induction false} RegisterAllKeys(popups: Popups, links: seq<Link>)
    ensures RegisterAll(popups, links).Keys == popups.Keys + Paths(links)
    decreases |links|
  {
    if links != [] {
      RegisterAllKeys(Register(popups, links[0]), links[1..]);
      PathsCons(links);
    }
  }

  /**
   * No entry is ever replaced: whatever path, build state and relocation record an
   * entry had (or, for a new path, the blank state it starts in) survive `setLinks`.
   */
  lemma {:induction false} RegisterAllKeepsBuildState(popups: Popups, links: seq<Link>)
    ensures forall p :: p in RegisterAll(popups, links) ==>
      SameBuildState(RegisterAll(popups, links)[p],
        if p in popups then popups[p] else Entry(p, [], false, None, None, None))
    decreases |links|
  {
    if links != [] {
      var next := Register(popups, links[0]);
      RegisterAllKeepsBuildState(next, links[1..]);
      RegisterAllKeys(next, links[1..]);
    }
  }

  /**
   * Each entry's selectors are its old ones extended by the hashes of the triggers for
   * that path, however the triggers for different paths interleave.
   */
  lemma {:induction false} RegisterAllSelectors(popups: Popups, links: seq<Link>, p: string)
    requires p in RegisterAll(popups, links)
    ensures RegisterAll(popups, links)[p].selectors == AddSelectors(BaseSelectors(popups, p), SelectorsFor(links, p))
    decreases |links|
  {
    if links != [] {
      var next := Register(popups, links[0]);
      RegisterAllSelectors(next, links[1..], p);
      if p == links[0].path {
        assert BaseSelectors(next, p) == AddSelector(BaseSelectors(popups, p), links[0].hash);
        assert SelectorsFor(links, p) == [links[0].hash] + SelectorsFor(links[1..], p);
      } else {
        assert BaseSelectors(next, p) == BaseSelectors(popups, p);
        assert SelectorsFor(links, p) == SelectorsFor(links[1..], p);
      }
    }
  }

  /**
   * Adding selectors keeps the list duplicate-free, keeps the old list as a prefix, and
   * ends up holding exactly the old selectors plus every non-empty new one.
   */
  lemma {:induction false} AddSelectorsSpec(selectors: seq<string>, xs: seq<string>)
    requires Distinct(selectors)
    ensures Distinct(AddSelectors(selectors, xs))
    ensures forall x :: x in AddSelectors(selectors, xs) <==> x in selectors || (x in xs && x != "")
    decreases |xs|
  {
    if xs != [] {
      var next := AddSelector(selectors, xs[0]);
      assert Distinct(next);
      AddSelectorsSpec(next, xs[1..]);
      assert forall x :: x in xs <==> x == xs[0] || x in xs[1..] by {
        assert xs == [xs[0]] + xs[1..];
      }
    }
  }

  /** The position of the first occurrence, for any element that occurs. */
  function FirstIndex(xs: seq<string>, x: string): nat
    requires x in xs
  {
    IndexOf(xs, x).value
  }

  /** An element past the old prefix is a new, non-empty selector of the run. */
  lemma AddedElement(selectors: seq<string>, xs: seq<string>, i: nat)
    requires Distinct(selectors) && |selectors| <= i < |AddSelectors(selectors, xs)|
    ensures var r := AddSelectors(selectors, xs);
      r[i] in xs && r[i] != "" && r[i] !in selectors
  {
    var r := AddSelectors(selectors, xs);
    AddSelectorsSpec(selectors, xs);
    assert r[..|selectors|] == selectors;
    NotInPrefix(r, |selectors|, i);
  }

  /**
   * First-seen order: the selectors a run of triggers adds appear in the order in
   * which each was first seen.
   */
  lemma {:induction false} AddSelectorsFirstSeen(selectors: seq<string>, xs: seq<string>, i: nat, j: nat)
    requires Distinct(selectors)
    requires |selectors| <= i < j < |AddSelectors(selectors, xs)|
    ensures var r := AddSelectors(selectors, xs);
      r[i] in xs && r[j] in xs && FirstIndex(xs, r[i]) < FirstIndex(xs, r[j])
    decreases |xs|
  {
    var r := AddSelectors(selectors, xs);
    AddedElement(selectors, xs, i);
    AddedElement(selectors, xs, j);
    var x := xs[0];
    var next := AddSelector(selectors, x);
    assert Distinct(next);
    assert r == AddSelectors(next, xs[1..]);
    FirstIndexCons(xs, r[i]);
    FirstIndexCons(xs, r[j]);
    if next == selectors {
      AddSelectorsFirstSeen(next, xs[1..], i, j);
    } else if i == |selectors| {
      assert r[i] == x;
      AddSelectorsSpec(selectors, xs);
    } else {
      AddedElement(next, xs[1..], i);
      AddedElement(next, xs[1..], j);
      AddSelectorsFirstSeen(next, xs[1..], i, j);
    }
  }

  lemma NotInPrefix(r: seq<string>, n: nat, i: nat)
    requires Distinct(r) && n <= i < |r|
    ensures r[i] !in r[..n]
  {
    forall k | 0 <= k < n ensures r[..n][k] != r[i] {
      assert r[..n][k] == r[k];
    }
  }

  lemma FirstIndexCons(xs: seq<string>, y: string)
    requires xs != [] && y in xs
    ensures y == xs[0] ==> FirstIndex(xs, y) == 0
    ensures y != xs[0] ==> y in xs[1..] && FirstIndex(xs, y) == FirstIndex(xs[1..], y) + 1
  {
    assert xs == [xs[0]] + xs[1..];
  }
}

=== FILE: scripts.dfy ===
/**
 * `loadScripts`: run each queued script once per call, de-duplicating on the script's
 * body (inline scripts, run by `eval`) or its `src` (external scripts, appended to the
 * body of the page).
 */
module Scripts {
  import opened Common

  /** A queued `<script>` element: its `src` (empty for inline scripts) and `innerHTML`. */
  datatype ScriptEl = ScriptEl(src: string, body: string)

  /** What running a script amounts to: `eval` of its body, or a new `<script src>` appended. */
  datatype Exec = Eval(code: string) | Append(src: string)

  /** The effect of running one script: its body when it has one, otherwise its `src`. */
  function ExecOf(el: ScriptEl): (e: Exec)
    ensures e.Eval? <==> el.body != ""
    ensures e.Eval? ==> e.code == el.body
    ensures e.Append? ==> e.src == el.src
  {
    if el.body != "" then Eval(el.body) else Append(el.src)
  }

  /** The value pushed onto `hasLoaded` after an effect. */
  function KeyOf(e: Exec): string {
    match e
    case Eval(code) => code
    case Append(src) => src
  }

  function Keys(es: seq<Exec>): (r: seq<string>)
    ensures |r| == |es|
  {
    if es == [] then [] else [KeyOf(es[0])] + Keys(es[1..])
  }

  lemma {:induction false} KeysSnoc(es: seq<Exec>, e: Exec)
    ensures Keys(es + [e]) == Keys(es) + [KeyOf(e)]
  {
    if es != [] {
      assert (es + [e])[1..] == es[1..] + [e];
      KeysSnoc(es[1..], e);
    }
  }

  /** An entry of `scriptsToLoad`: a script element, or `null` when the loader query found none. */
  type Queued = Option<ScriptEl>

  /**
   * The effects of the rest of the loop over `scripts`, with `loaded` the values already
   * in `hasLoaded`: a script is skipped when its `src` or its body was recorded before,
   * and a queued `null` ends the loop (reading `el.src` throws).
   */
  function Plan(scripts: seq<Queued>, loaded: seq<string>): (r: seq<Exec>)
    ensures |r| <= |scripts|
    ensures forall k :: 0 <= k < |r| ==> KeyOf(r[k]) !in loaded
    decreases |scripts|
  {
    if scripts == [] then []
    else match scripts[0]
      case None => []
      case Some(el) =>
        if Seen(el, loaded) then Plan(scripts[1..], loaded)
        else [ExecOf(el)] + Plan(scripts[1..], loaded + [KeyOf(ExecOf(el))])
  }

  /** `hasLoaded.includes(el.src) || hasLoaded.includes(el.innerHTML)`. */
  predicate Seen(el: ScriptEl, loaded: seq<string>) {
    el.src in loaded || el.body in loaded
  }

  lemma PlanStep(el: ScriptEl, rest: seq<Queued>, loaded: seq<string>)
    ensures Seen(el, loaded) ==> Plan([Some(el)] + rest, loaded) == Plan(rest, loaded)
    ensures !Seen(el, loaded) ==>
      Plan([Some(el)] + rest, loaded) == [ExecOf(el)] + Plan(rest, loaded + [KeyOf(ExecOf(el))])
  {
    assert ([Some(el)] + rest)[1..] == rest;
  }

  /** One turn of the loop in `loadScripts`: skip a script already seen, or run it and record it. */
  lemma PlanAdvance(scripts: seq<Queued>, i: nat, effects: seq<Exec>, loaded: seq<string>)
    requires i < |scripts| && scripts[i].Some? && effects + Plan(scripts[i..], loaded) == Plan(scripts, [])
    ensures var el := scripts[i].value;
      && (Seen(el, loaded) ==> effects + Plan(scripts[i + 1..], loaded) == Plan(scripts, []))
      && (!Seen(el, loaded) ==>
            (effects + [ExecOf(el)]) + Plan(scripts[i + 1..], loaded + [KeyOf(ExecOf(el))]) == Plan(scripts, []))
  {
    var el, rest := scripts[i].value, scripts[i + 1..];
    assert scripts[i..] == [Some(el)] + rest;
    PlanStep(el, rest, loaded);
    if !Seen(el, loaded) {
      assert (effects + [ExecOf(el)]) + Plan(rest, loaded + [KeyOf(ExecOf(el))])
        == effects + ([ExecOf(el)] + Plan(rest, loaded + [KeyOf(ExecOf(el))]));
    }
  }

  /**
   * `loadScripts()` over the current `scriptsToLoad`, with a fresh `hasLoaded`.
   * `finished` is false when a queued `null` made the loop throw.
   */
  method LoadScripts(scriptsToLoad: seq<Queued>) returns (effects: seq<Exec>, finished: bool)
    ensures scriptsToLoad == [] ==> effects == [] && finished
    ensures effects == Plan(scriptsToLoad, [])
    ensures finished <==> forall i :: 0 <= i < |scriptsToLoad| ==> scriptsToLoad[i].Some?
  {
    if |scriptsToLoad| == 0 {
      return [], true;
    }
    var hasLoaded: seq<string> := [];
    effects := [];
    var i := 0;
    assert scriptsToLoad[0..] == scriptsToLoad;
    while i < |scriptsToLoad|
      invariant 0 <= i <= |scriptsToLoad|
      invariant forall j :: 0 <= j < i ==> scriptsToLoad[j].Some?
      invariant hasLoaded == Keys(effects)
      invariant effects + Plan(scriptsToLoad[i..], hasLoaded) == Plan(scriptsToLoad, [])
    {
      if scriptsToLoad[i].None? {
        assert Plan(scriptsToLoad[i..], hasLoaded) == [];
        assert effects + [] == effects;
        return effects, false;
      }
      var el := scriptsToLoad[i].value;
      PlanAdvance(scriptsToLoad, i, effects, hasLoaded);
      if el.src in hasLoaded || el.body in hasLoaded {
        i := i + 1;
        continue;
      }
      KeysSnoc(effects, ExecOf(el));
      if el.body != "" {
        effects := effects + [Eval(el.body)];
        hasLoaded := hasLoaded + [el.body];
      } else {
        effects := effects + [Append(el.src)];
        hasLoaded := hasLoaded + [el.src];
      }
      i := i + 1;
    }
    finished := true;
  }

  /** A queued `null` ends the loop: the effects are those of the scripts queued before it. */
  lemma {:induction false} PlanStopsAtNull(scripts: seq<Queued>, loaded: seq<string>, i: nat)
    requires i < |scripts| && scripts[i].None?
    ensures Plan(scripts, loaded) == Plan(scripts[..i], loaded)
    decreases i
  {
    if i > 0 {
      var rest := scripts[1..];
      assert rest[..i - 1] == scripts[..i][1..] && rest[i - 1] == scripts[i];
      match scripts[0]
      case None =>
      case Some(el) =>
        PlanStopsAtNull(rest, loaded, i - 1);
        PlanStopsAtNull(rest, loaded + [KeyOf(ExecOf(el))], i - 1);
    }
  }

  /**
   * Within one call no value runs twice: the keys of the effects are pairwise
   * distinct and none of them had been recorded before.
   */
  lemma {:induction false} PlanNoRepeats(scripts: seq<Queued>, loaded: seq<string>)
    ensures Distinct(Keys(Plan(scripts, loaded)))
    ensures forall k :: k in Keys(Plan(scripts, loaded)) ==> k !in loaded
    decreases |scripts|
  {
    if scripts != [] && scripts[0].Some? {
      var el := scripts[0].value;
      if el.src in loaded || el.body in loaded {
        PlanNoRepeats(scripts[1..], loaded);
      } else {
        var k := KeyOf(ExecOf(el));
        var rest := Plan(scripts[1..], loaded + [k]);
        PlanNoRepeats(scripts[1..], loaded + [k]);
        assert Keys(Plan(scripts, loaded)) == [k] + Keys(rest);
        assert k !in loaded by {
          if el.body != "" { assert k == el.body; } else { assert k == el.src; }
        }
        ConsDistinct(k, Keys(rest));
      }
    }
  }

  /** `a` is `b` with some elements left out (order kept). */
  predicate IsSubsequence<T(==)>(a: seq<T>, b: seq<T>)
    decreases |b|
  {
    if a == [] then true
    else if b == [] then false
    else (a[0] == b[0] && IsSubsequence(a[1..], b[1..])) || IsSubsequence(a, b[1..])
  }

  /** The effect of every queued script, `null` entries aside. */
  function AllEffects(scripts: seq<Queued>): (r: seq<Exec>)
    ensures |r| <= |scripts|
    ensures (forall i :: 0 <= i < |scripts| ==> scripts[i].Some?) ==>
      |r| == |scripts| && forall i :: 0 <= i < |scripts| ==> r[i] == ExecOf(scripts[i].value)
  {
    if scripts == [] then []
    else (match scripts[0] case None => [] case Some(el) => [ExecOf(el)]) + AllEffects(scripts[1..])
  }

  /** Effects happen in `scriptsToLoad` order: they are the scripts' own effects, some skipped. */
  lemma {:induction false} PlanInOrder(scripts: seq<Queued>, loaded: seq<string>)
    ensures IsSubsequence(Plan(scripts, loaded), AllEffects(scripts))
    decreases |scripts|
  {
    if scripts != [] && scripts[0].Some? {
      var el := scripts[0].value;
      var all := AllEffects(scripts);
      assert all[1..] == AllEffects(scripts[1..]);
      if el.src in loaded || el.body in loaded {
        PlanInOrder(scripts[1..], loaded);
        EmptyOrSkip(Plan(scripts[1..], loaded), all);
      } else {
        PlanInOrder(scripts[1..], loaded + [KeyOf(ExecOf(el))]);
      }
    }
  }

  lemma EmptyOrSkip(a: seq<Exec>, b: seq<Exec>)
    requires b != [] && IsSubsequence(a, b[1..])
    ensures IsSubsequence(a, b)
  {
  }

  /**
   * Nothing the loop reaches is dropped silently: every script up to index `i`, when
   * no `null` came before, either ran or was skipped because its `src` or its body is
   * among the values recorded in `hasLoaded`.
   */
  lemma {:induction false} PlanCovers(scripts: seq<Queued>, loaded: seq<string>, i: nat)
    requires i < |scripts| && forall j :: 0 <= j <= i ==> scripts[j].Some?
    ensures var recorded := loaded + Keys(Plan(scripts, loaded));
      scripts[i].value.src in recorded || scripts[i].value.body in recorded
    decreases |scripts|
  {
    var el := scripts[0].value;
    var rest := scripts[1..];
    assert scripts == [Some(el)] + rest;
    PlanStep(el, rest, loaded);
    if i > 0 {
      assert scripts[i] == rest[i - 1];
      assert forall j :: 0 <= j <= i - 1 ==> rest[j] == scripts[j + 1];
    }
    if Seen(el, loaded) {
      if i > 0 {
        PlanCovers(rest, loaded, i - 1);
      }
    } else {
      var k := KeyOf(ExecOf(el));
      var later := Plan(rest, loaded + [k]);
      assert Keys(Plan(scripts, loaded)) == [k] + Keys(later) by {
        assert Plan(scripts, loaded) == [ExecOf(el)] + later;
      }
      assert loaded + Keys(Plan(scripts, loaded)) == (loaded + [k]) + Keys(later);
      if i > 0 {
        PlanCovers(rest, loaded + [k], i - 1);
      } else {
        assert k == el.src || k == el.body;
      }
    }
  }

  /**
   * `hasLoaded` starts empty on every call, so the first queued script always runs:
   * one with a body is `eval`ed, any other is appended.
   */
  lemma FirstScriptRuns(scriptsToLoad: seq<Queued>)
    requires scriptsToLoad != [] && scriptsToLoad[0].Some?
    ensures Plan(scriptsToLoad, []) != []
    ensures Plan(scriptsToLoad, [])[0] == ExecOf(scriptsToLoad[0].value)
  {
  }
}
